=== FILE: README.md ===
# my-bus-pulse core logic in Dafny

my-bus-pulse is a demo transit front end. It has live bus positions fed by a
browser-side simulator and a realtime list. It also has signup and profile
pages with a mock SMS verification, a mock authentication context, two map
widgets that move a bus from stop to stop, a crowd-photo analyser and the
edge function behind it, and a route search card. Under the React views
there is a set of small sequential machines and pure validators. This
project models each one as an immutable record with pure transition
functions and proves what those pieces promise.

Backend results, random draws, the clock, JSON parsing and URL encoding
are parameters of the functions. An awaited handler is one atomic step
whose awaited outcome is an argument. A pending timer is either an
explicit entry in the state or a count of leaked intervals.

Modules, one per source file plus three shared ones:

- `Wrappers`: `Option`.
- `Text`: the JavaScript string operations the code relies on.
  - `trim` with the ECMAScript white-space set.
  - Truthiness and `||` on strings.
  - `startsWith`.
  - Decimal rendering of a natural number.
  - `split` on one character, and `join`.
  - `length`, counted in UTF-16 code units.
- `BusTracking` (`src/hooks/useBusTracking.ts`): the initial load and the INSERT/UPDATE/DELETE reducer.
- `BusSimulator` (`src/services/busSimulator.ts`): the roster, `start`, `stop`, the position tick and the singleton.
- `LiveTracking` (`src/pages/LiveTracking.tsx`): the page's start/stop handlers, button enablement, panels and timestamp text.
- `PasswordStrength` (`src/components/auth/PasswordStrengthMeter.tsx`).
- `Signup` (`src/pages/Signup.tsx`): ordered validation, the phone pattern as a loop, and submission.
- `Profile` (`src/pages/Profile.tsx`): section whitelist, field-to-column map, countdown, `m:ss` formatting, and the OTP machine.
- `AuthContext` (`src/contexts/AuthContext.tsx`): login, signup, logout, updateUser, and the local-storage restore and sync effects.
- `StopProgression`: the stop-by-stop animation machine that both map widgets share. It covers the route polyline, interpolation, the Move guard, completion, reset and the label.
- `LeafletMap` (`src/components/ui/leaflet-map.tsx`) and `GoogleMap` (`src/components/ui/google-map.tsx`).
- `CrowdDetector` (`src/components/crowd-detection/CrowdDetector.tsx`): file checks, base64 extraction, analysis outcome, level colour, label and display.
- `DetectCrowd` (`supabase/functions/detect-crowd/index.ts`): the HTTP decision table.
- `RouteSearch` (`src/components/ui/route-search.tsx`).

Two behaviours a reader might expect are absent from the code, and the model follows the code:

- `start` is not idempotent. There is no running guard, and a second `start` overwrites `intervalId` and leaks the first interval (`BusSimulator.DoubleStartLeaksTimer`).
- The list reducer has no event buffering and no deduplication. INSERT always appends (`BusTracking.InsertDoesNotDedupe`).

## Model

| member | source | states |
|---|---|---|
| Text.Trim | src/pages/Signup.tsx:44 | `trim()` yields the empty string exactly when every character is ECMAScript white space; a non-empty result neither starts nor ends with white space |
| Text.TrimIsInfix | src/pages/Signup.tsx:53 | the trimmed string is the contiguous slice of the input that starts after the leading white space |
| Text.OrElse | src/pages/Profile.tsx:103 | `a \|\| b` on strings: `a` when it is non-empty, otherwise `b` |
| Text.NatToString | src/contexts/AuthContext.tsx:82 | the decimal rendering of a number is non-empty, all ASCII digits, and has no leading zero unless it is `"0"` |
| Text.NatToStringRoundTrip | src/pages/Profile.tsx:228-230 | reading the decimal rendering back gives the original number |
| Text.NatToStringInjective | src/contexts/AuthContext.tsx:82 | different timestamps give different user ids |
| Text.Split | src/components/crowd-detection/CrowdDetector.tsx:52 | `split(c)` yields at least one piece, no piece contains `c`, and there is one more piece than there are occurrences of `c` |
| Text.CountCharZeroIff | src/components/crowd-detection/CrowdDetector.tsx:52 | a character occurs nowhere iff its count is zero |
| Text.SplitJoinRoundTrip | src/components/crowd-detection/CrowdDetector.tsx:52 | joining the pieces of a split with the separator gives back the original string |
| Text.SplitNoSeparator | src/components/crowd-detection/CrowdDetector.tsx:52 | a string without the separator splits into itself alone |
| Text.Utf16Length | src/components/auth/PasswordStrengthMeter.tsx:9-10 | `length` counts UTF-16 code units: at least the number of characters and at most twice it |
| Text.Utf16LengthAppend | src/components/auth/PasswordStrengthMeter.tsx:9-10 | the code-unit length of a concatenation is the sum of the parts' lengths |
| Text.Utf16LengthIsLengthIff | src/components/auth/PasswordStrengthMeter.tsx:9-10 | the code-unit length equals the character count iff no character lies beyond U+FFFF |
| Text.SplitAtFirst | src/components/crowd-detection/CrowdDetector.tsx:52 | splitting `a + sep + b` with `sep` not in `a` gives `a` followed by the pieces of `b` |
| BusTracking.Append | src/hooks/useBusTracking.ts:52-53 | INSERT: the list grows by one, the earlier rows are unchanged and the new row is last |
| BusTracking.ReplaceById | src/hooks/useBusTracking.ts:54-61 | UPDATE: same length; every row with the new row's id becomes the new row; every other row is untouched |
| BusTracking.RemoveById | src/hooks/useBusTracking.ts:62-66 | DELETE: exactly the rows with that id go (the length drops by their count), and a row survives iff its id differs |
| BusTracking.Bootstrap | src/hooks/useBusTracking.ts:22-77 | after the initial load loading is off; the error is set iff the query did not return data; the list is `data \|\| []` on success and empty otherwise; the channel opens unless the setup threw |
| BusTracking.OnEvent | src/hooks/useBusTracking.ts:49-67 | an event changes only the list: +1 row on INSERT, same length on UPDATE, no growth on DELETE, nothing for any other event type or before subscribing |
| BusTracking.CountIdAppend | src/hooks/useBusTracking.ts:52-53 | appending a row adds one to the count of its id and leaves the other ids' counts unchanged |
| BusTracking.CountIdPositive | src/hooks/useBusTracking.ts:62-66 | an id has a positive count iff it is in the list's id set |
| BusTracking.InsertDoesNotDedupe | src/hooks/useBusTracking.ts:52-53 | INSERT of an existing id adds a second row with that id, so ids stop being distinct |
| BusTracking.InsertFreshKeepsDistinct | src/hooks/useBusTracking.ts:52-53 | INSERT of a fresh id keeps ids distinct and adds exactly that id |
| BusTracking.UpdateKeepsIds | src/hooks/useBusTracking.ts:54-61 | UPDATE keeps every position's id, the id set and distinctness |
| BusTracking.UpdateAbsentIsNoop | src/hooks/useBusTracking.ts:55-60 | UPDATE for an id not in the list leaves the list unchanged |
| BusTracking.UpdateIdempotent | src/hooks/useBusTracking.ts:54-61 | applying the same UPDATE twice equals applying it once |
| BusTracking.DeleteRemovesId | src/hooks/useBusTracking.ts:62-66 | after DELETE the id is gone, every other id remains, and the length drops by that id's count |
| BusTracking.DeleteKeepsOrder | src/hooks/useBusTracking.ts:63-65 | DELETE distributes over concatenation, so the survivors keep their relative order |
| BusTracking.DeleteAbsentIsNoop | src/hooks/useBusTracking.ts:63-65 | DELETE of an absent id leaves the list unchanged |
| BusTracking.DeleteUndoesFreshInsert | src/hooks/useBusTracking.ts:52-66 | DELETE is the inverse of an INSERT of a fresh id |
| BusTracking.DeleteAfterUpdate | src/hooks/useBusTracking.ts:54-66 | an UPDATE followed by a DELETE of the same id equals the DELETE alone |
| BusTracking.ApplyAllIdsWithin | src/hooks/useBusTracking.ts:49-67 | after any event sequence every id was either loaded initially or came in by an INSERT |
| BusTracking.BootstrapDistinctRows | src/hooks/useBusTracking.ts:34 | loaded rows with distinct ids are shown as they are: same length, same ids, still distinct |
| BusSimulator.NewSimulator | src/services/busSimulator.ts:8-16 | a fresh simulator has six vehicles with the listed ids, distinct, each id being `TSRTC-<route>-00<n>`, and no interval |
| BusSimulator.Step | src/services/busSimulator.ts:71-72 | a draw in [0,1) moves a coordinate by a delta in [-0.00075, 0.00075) |
| BusSimulator.RoundTenth | src/services/busSimulator.ts:78 | rounding to one decimal moves the value by at most 0.05 |
| BusSimulator.Speed | src/services/busSimulator.ts:78 | the speed lies in [20, 50] |
| BusSimulator.Heading | src/services/busSimulator.ts:79 | the heading is an integer in 0..359 |
| BusSimulator.Advance | src/services/busSimulator.ts:69-72 | a tick keeps every vehicle's id and route and moves each coordinate by at most 0.00075 |
| BusSimulator.Batch | src/services/busSimulator.ts:74-83 | one sample per vehicle, in roster order, carrying the moved position, a speed in [20,50], a heading in 0..359 and that row's own clock reading |
| BusSimulator.SendAllPositions | src/services/busSimulator.ts:66-93 | a tick keeps the timer state and the roster's ids, and inserts one sample per vehicle whose ids are the roster ids in order (a failed insert changes nothing else) |
| BusSimulator.Start | src/services/busSimulator.ts:18-56 | no user: nothing happens; a user: one assignment per vehicle; a failed upsert: no batch and no interval; otherwise one batch and an armed interval, and an already-armed interval is leaked |
| BusSimulator.Stop | src/services/busSimulator.ts:58-64 | after `stop` no interval is armed and the roster is unchanged; with no interval it changes nothing |
| BusSimulator.IntervalFires | src/services/busSimulator.ts:53-55 | while an interval (armed or leaked) exists each firing sends one sample per vehicle and keeps it running; otherwise nothing happens |
| BusSimulator.RunTicks | src/services/busSimulator.ts:53-55 | any number of ticks keeps the roster size |
| BusSimulator.DriftBounded | src/services/busSimulator.ts:71-72 | after N ticks every vehicle keeps its id and route and has moved at most N·0.00075 per axis |
| BusSimulator.GetSimulator | src/services/busSimulator.ts:96-104 | the singleton is created once, on first use, and returned unchanged afterwards |
| BusSimulator.GetSimulatorStable | src/services/busSimulator.ts:99-104 | a second `getSimulator` returns the same instance and leaves the registry as it was |
| BusSimulator.DoubleStartLeaksTimer | src/services/busSimulator.ts:53 | two successful starts then a stop still leave one interval firing |
| BusSimulator.StopNeverStartedIsNoop | src/services/busSimulator.ts:59 | stopping a simulator that never started changes nothing |
| LiveTracking.HandleStart | src/pages/LiveTracking.tsx:18-36 | unauthenticated: only the "Authentication Required" toast; authenticated: the singleton's `start` runs and the page shows running, whether or not `start` aborted |
| LiveTracking.HandleStop | src/pages/LiveTracking.tsx:38-47 | stop always calls the simulator's `stop`, clears the running flag and leaves no interval armed |
| LiveTracking.ButtonsAlternate | src/pages/LiveTracking.tsx:79-93 | Start and Stop are never both enabled; after an authenticated start only Stop is; after a stop Start is enabled iff authenticated |
| LiveTracking.RunningFlagCanDisagree | src/pages/LiveTracking.tsx:28-30 | with no backend user the page says running while the simulator has no interval |
| LiveTracking.UnauthenticatedStartLeavesSimulator | src/pages/LiveTracking.tsx:19-26 | an unauthenticated start never touches the simulator and leaves the flag false |
| LiveTracking.FormatTimestamp | src/pages/LiveTracking.tsx:49-53 | a missing or empty timestamp shows `N/A`; any other is passed to the locale formatter |
| LiveTracking.ListPanels | src/pages/LiveTracking.tsx:109-124 | the bus grid shows iff neither the spinner nor the error card does |
| LiveTracking.PanelsAfterBootstrap | src/pages/LiveTracking.tsx:109-124 | after the initial load the spinner is gone; a successful load shows the grid; a failed load with a message shows only the error card |
| PasswordStrength.CountTrue | src/components/auth/PasswordStrengthMeter.tsx:7-14 | the number of met criteria is at most the number of criteria |
| PasswordStrength.Score | src/components/auth/PasswordStrengthMeter.tsx:7-14 | the score counts the met criteria among the six, so it is at most 6 |
| PasswordStrength.LabelFor | src/components/auth/PasswordStrengthMeter.tsx:16-18 | Weak iff score ≤ 2, Medium iff 3 ≤ score ≤ 4, Strong iff score ≥ 5 |
| PasswordStrength.CalculateStrength | src/components/auth/PasswordStrengthMeter.tsx:6-19 | the result's score counts the met criteria and its label is the threshold label of that score |
| PasswordStrength.Meter | src/components/auth/PasswordStrengthMeter.tsx:21-23 | nothing is rendered iff the password is empty |
| PasswordStrength.Percentage | src/components/auth/PasswordStrengthMeter.tsx:24 | the bar width lies in [0,100]; it is 100 iff the score is 6 and 0 iff the score is 0 |
| PasswordStrength.NonEmptyScoresAtLeastOne | src/components/auth/PasswordStrengthMeter.tsx:11-14 | every character is in one of the four classes, so a non-empty password scores at least 1 |
| PasswordStrength.LongScoresAtLeastTwo | src/components/auth/PasswordStrengthMeter.tsx:9-10 | a `length` of 12 or more code units earns both length points |
| PasswordStrength.LongPasswordNotWeak | src/components/auth/PasswordStrengthMeter.tsx:9-18 | a password of 12 or more code units scores at least 3 and is never labelled Weak |
| PasswordStrength.AppendNeverLowersScore | src/components/auth/PasswordStrengthMeter.tsx:7-14 | typing one more character never lowers the score |
| PasswordStrength.FullScoreIff | src/components/auth/PasswordStrengthMeter.tsx:7-14 | the score is 6 iff the password is 12 or more code units long and has all four character classes |
| PasswordStrength.LengthPointCountsCodeUnits | src/components/auth/PasswordStrengthMeter.tsx:9 | without characters beyond U+FFFF the first length point needs 8 characters; four emoji, 8 code units, already earn it |
| Signup.Rank | src/pages/Signup.tsx:43-98 | every check has a position in the order name, email, phone, length, match, terms |
| Signup.MatchPhone | src/pages/Signup.tsx:62 | the loop accepts exactly an optional `+` followed by 10 to 15 ASCII digits and nothing else |
| Signup.Validate | src/pages/Signup.tsx:43-99 | a reported error is a failing check; success implies the terms are accepted and the password is long enough and confirmed |
| Signup.FirstFailureCons | src/pages/Signup.tsx:43-98 | the first failing check of a list is its head when the head fails, else the first failure of the rest |
| Signup.ValidateIsFirstFailure | src/pages/Signup.tsx:43-98 | validation reports the first failing check in the order name, email, phone, length, match, terms |
| Signup.ValidIffAllChecksPass | src/pages/Signup.tsx:43-98 | validation succeeds iff all six checks pass |
| Signup.ReportsFirstFailure | src/pages/Signup.tsx:43-98 | every check earlier than the reported one passed |
| Signup.EarlierCheckPasses | src/pages/Signup.tsx:43-98 | a check ranked before the reported one passed for this form |
| Signup.PhonePatternImpliesNotBlank | src/pages/Signup.tsx:62 | a number matching the pattern is never blank, so the blank test never decides on its own |
| Signup.PhoneCheckIsPattern | src/pages/Signup.tsx:62 | the phone check fails iff the untrimmed number does not match the pattern |
| Signup.HandleSubmit | src/pages/Signup.tsx:101-141 | `signUp` is called, with email, password, name and phone, iff validation passes; a failed validation shows its error; a throw shows the generic failure and a non-empty error shows that error, neither navigating; a clean response to a valid form navigates to `/login` with the success toast; loading always ends off |
| Signup.TermsGateSubmit | src/pages/Signup.tsx:288 | without the terms ticked the button is disabled and a submission never calls `signUp` or navigates |
| Profile.SectionNamed | src/pages/Profile.tsx:57 | an id names a section iff it is one of personal, contact, settings, support, and that section's id is the given id |
| Profile.ApplySectionParam | src/pages/Profile.tsx:55-60 | the URL parameter becomes the active section only when present and whitelisted |
| Profile.Rendered | src/pages/Profile.tsx:597-609 | an active section outside the four renders the personal section |
| Profile.SectionIdRoundTrip | src/pages/Profile.tsx:597-609 | each section's id names that section and renders it |
| Profile.SectionParamOutsideWhitelistIgnored | src/pages/Profile.tsx:57 | a non-whitelisted parameter does not change what is rendered |
| Profile.SetField | src/pages/Profile.tsx:77 | the edited field reads back the new value and every other field is unchanged |
| Profile.ColumnFor | src/pages/Profile.tsx:80-85 | every field except email has a profile column |
| Profile.HandleInputChange | src/pages/Profile.tsx:76-90 | the form takes the value; a profile write with the mapped column happens iff the field is not email |
| Profile.ColumnsDistinct | src/pages/Profile.tsx:81-85 | two different mapped fields share a column iff they are contactNumber and phoneNumber |
| Profile.SetFieldLaws | src/pages/Profile.tsx:77 | a later write to the same field wins, and writing back a field's own value changes nothing |
| Profile.CountdownTick | src/pages/Profile.tsx:130-136 | a tick never goes below 0: values ≤ 1 become 0, others drop by one |
| Profile.TicksClampAtZero | src/pages/Profile.tsx:129-137 | n ticks from c leave `max(c − n, 0)` |
| Profile.PadStart2 | src/pages/Profile.tsx:230 | `padStart(2,'0')` keeps the string as a suffix, pads with zeros only, and has length max(len, 2) |
| Profile.FormatTime | src/pages/Profile.tsx:227-231 | the text is the minutes in decimal, a colon, then two characters |
| Profile.PadStart2Value | src/pages/Profile.tsx:229-230 | seconds below 60 render as exactly two digits with the same value |
| Profile.FormatTimeSplits | src/pages/Profile.tsx:230 | the text splits at its single colon into the decimal minutes and the two-digit seconds |
| Profile.FormatTimeRoundTrip | src/pages/Profile.tsx:227-231 | parsing `m:ss` back gives the original number of seconds |
| Profile.FormatTimeExamples | src/pages/Profile.tsx:227-231 | 60 renders as `1:00` and 5 as `0:05` |
| Profile.OpenSmsVerification | src/pages/Profile.tsx:101-109 | the phone dialog opens prefilled with the contact number, or else the phone number, or empty |
| Profile.SendOtp | src/pages/Profile.tsx:111-147 | an empty number changes nothing; otherwise the OTP dialog replaces the phone dialog with a 60 s countdown and a session id, and the attempts are not reset |
| Profile.SubmitOtp | src/pages/Profile.tsx:149-193 | a code whose `length` is not 6 code units only sets the error; `123456` enables SMS and resets everything; a wrong code costs one attempt and closes the dialog iff it was the last, and then restarts the countdown at 60 (otherwise the countdown stays); the phone, the session id and the phone dialog stay as they were |
| Profile.ResendOtp | src/pages/Profile.tsx:195-225 | resend restarts the countdown, restores three attempts, clears the error and sets a new session id |
| Profile.CancelOtp | src/pages/Profile.tsx:440-447 | cancel closes the dialog, clears the code and the error, and resets the countdown and the attempts |
| Profile.DismissOtp | src/pages/Profile.tsx:382 | the dialog's own close hides it and changes nothing else: code, attempts, error and countdown stay as they were |
| Profile.Tick | src/pages/Profile.tsx:129-137 | a tick changes only the countdown, by the clamped decrement |
| Profile.TransitionsKeepValid | src/pages/Profile.tsx:101-447 | every transition, including Cancel and the dialog's own close, keeps the countdown in 0..60 and the attempts at most 3 |
| Profile.IncompleteOtpCostsNothing | src/pages/Profile.tsx:150-153 | an incomplete code disables Submit and, submitted anyway, costs no attempt and keeps the dialog |
| Profile.DismissIsNotCancel | src/pages/Profile.tsx:382-446 | closing the dialog without Cancel keeps a spent attempt (so it differs from Cancel), and sending again reopens it with the old code and attempts |
| Profile.ThreeWrongCodesLockOut | src/pages/Profile.tsx:174-182 | from three attempts, three wrong codes close the dialog at 0 attempts, the first two keep it open |
| Profile.SendAfterLockOutKeepsCounter | src/pages/Profile.tsx:111-182 | sending again after a lock-out keeps 0 attempts, so the next wrong code drives the counter to -1 and closes the dialog at once |
| Profile.DemoCodeAlwaysAccepted | src/pages/Profile.tsx:163-171 | the demo code is accepted in every state and restores three attempts |
| Profile.ResendAfterSixtyTicks | src/pages/Profile.tsx:128-137 | after sending, the resend link appears exactly after 60 ticks |
| AuthContext.MockUser | src/contexts/AuthContext.tsx:57-66 | the mock user carries the login email |
| AuthContext.Login | src/contexts/AuthContext.tsx:51-74 | login succeeds iff email and password are non-empty; success signs in a user with that email; failure changes nothing |
| AuthContext.OrEmpty | src/contexts/AuthContext.tsx:83-89 | `x \|\| ''` for an optional field: the value when given, else empty |
| AuthContext.Signup | src/contexts/AuthContext.tsx:76-95 | signup always succeeds and signs in a user with the given email, the timestamp as id, and `''` for every missing field |
| AuthContext.Logout | src/contexts/AuthContext.tsx:97-100 | logout clears the user and the flag |
| AuthContext.Merge | src/contexts/AuthContext.tsx:104 | `{...user, ...patch}`: a given field takes the patch's value, an absent one keeps the user's |
| AuthContext.UpdateUser | src/contexts/AuthContext.tsx:102-106 | updateUser never changes the authentication flag |
| AuthContext.MergeLaws | src/contexts/AuthContext.tsx:104 | an empty patch changes nothing, a patch applied twice equals once, and a later patch's email wins |
| AuthContext.OperationsKeepConsistent | src/contexts/AuthContext.tsx:51-106 | login, signup, logout and updateUser keep "a user is present iff authenticated" |
| AuthContext.UpdateAfterLogoutIsNoop | src/contexts/AuthContext.tsx:102-106 | after logout updateUser does nothing |
| AuthContext.Sync | src/contexts/AuthContext.tsx:41-49 | both storage keys are present iff there is a user and the flag is set, and then they hold that user and `'true'` |
| AuthContext.Restore | src/contexts/AuthContext.tsx:30-38 | the state is restored only when a saved user exists and the saved flag is exactly `'true'` |
| AuthContext.SyncRestoreRoundTrip | src/contexts/AuthContext.tsx:30-49 | restoring what the sync effect saved gives back the same consistent state |
| AuthContext.Mount | src/contexts/AuthContext.tsx:30-49 | after mounting the state is consistent and storage agrees with it |
| AuthContext.MountIsStable | src/contexts/AuthContext.tsx:30-49 | a reload of saved consistent state gives the same state and storage |
| AuthContext.MountDiscardsUnflaggedUser | src/contexts/AuthContext.tsx:30-49 | a saved user without the `'true'` flag is not restored and is then wiped from storage |
| StopProgression.RouteCoords | src/components/ui/leaflet-map.tsx:192-196 | the polyline is start, each stop in order, then end, so it has `\|stops\|+2` points |
| StopProgression.InitialSeats | src/components/ui/leaflet-map.tsx:214 | the seats shown at start are the first stop's, or 5 when there is no stop or it has 0 |
| StopProgression.StepPosition | src/components/ui/leaflet-map.tsx:231-239 | step 0 is the start of the leg and the last step is the target |
| StopProgression.LerpEnds | src/components/ui/leaflet-map.tsx:231-239 | the interpolation starts at the first end and reaches the other |
| StopProgression.LerpBetween | src/components/ui/leaflet-map.tsx:231-239 | every step is the same fraction `(b − a)/n` of the leg and the walk stays between the ends |
| StopProgression.LegPosition | src/components/ui/leaflet-map.tsx:227-239 | a leg starts where the bus was and, at its last tick, stands on the target stop |
| StopProgression.Unreported | src/components/ui/google-map.tsx:37-38 | before any report: index 0, not animating, no timers, marker at the start, no seat count reported |
| StopProgression.Initial | src/components/ui/leaflet-map.tsx:214 | the machine starts at index 0, not animating, no timers, initial seats reported; it is the unreported state plus that report |
| StopProgression.Animate | src/components/ui/leaflet-map.tsx:222-230 | Move is ignored without the map objects, while animating or past the last stop; otherwise it starts one timer for the current stop |
| StopProgression.Complete | src/components/ui/leaflet-map.tsx:246-256 | a finishing timer stops the animation, places the bus on its stop, shows that stop's seats and adds one to the index |
| StopProgression.Reset | src/components/ui/leaflet-map.tsx:260-270 | reset as written: index 0, not animating, bus at start, initial seats, and every running timer kept |
| StopProgression.ResetCancelling | src/components/ui/leaflet-map.tsx:260-270 | reset with the running timer cancelled: exactly the initial state |
| StopProgression.Label | src/components/ui/leaflet-map.tsx:294 | the label is the current stop's name, or `Destination Reached` past the last stop |
| StopProgression.Step | src/components/ui/leaflet-map.tsx:222-270 | every event keeps every running timer aimed at an existing stop |
| StopProgression.OrderlyStep | src/components/ui/leaflet-map.tsx:222-270 | with a cancelling reset every event keeps at most one timer, aimed at the current stop, with index plus timers within the stop count |
| StopProgression.CancellingRunStaysInRange | src/components/ui/leaflet-map.tsx:222-270 | with a cancelling reset, no sequence of clicks and timer firings takes the index past the stop count |
| StopProgression.RunWithoutResetStaysInRange | src/components/ui/leaflet-map.tsx:222-258 | without Reset, the code as written never takes the index past the stop count |
| StopProgression.ResetDuringAnimationOvershoots | src/components/ui/leaflet-map.tsx:260-270 | as written, Move, Reset, Move and both timers finishing take a one-stop route to index 2 |
| LeafletMap.Mount | src/components/ui/leaflet-map.tsx:192-216 | mounting creates map, marker and glow and shows the initial seats |
| LeafletMap.MoveBus | src/components/ui/leaflet-map.tsx:222-224 | Move needs the map, the marker and the glow, no running animation and a stop left, and then starts one leg from the marker's position |
| LeafletMap.ResetBus | src/components/ui/leaflet-map.tsx:260-270 | as written: with marker and glow, reset returns to index 0, not animating, bus at start, initial seats reported, and every running leg timer kept; without them nothing changes |
| LeafletMap.ResetBusCancelling | src/components/ui/leaflet-map.tsx:260-270 | corrected reset: the same, with no leg timer left running; it differs from the as-written reset only in the timers |
| LeafletMap.LegIsEvenAndBounded | src/components/ui/leaflet-map.tsx:231-239 | each tick moves by a sixtieth of the leg, and at every step from 0 to 60 the marker stays between the ends on both axes, whichever way each axis runs |
| LeafletMap.FirstLegReachesFirstStop | src/components/ui/leaflet-map.tsx:222-256 | after mounting, one Move and its completion put the bus on the first stop, show its seats and label the next stop |
| GoogleMap.ViewOf | src/components/ui/google-map.tsx:198 | the key form shows iff the key is empty |
| GoogleMap.InitializeMap | src/components/ui/google-map.tsx:40-134 | nothing happens without the map container or with an empty key; a successful load creates map and marker and sets loaded |
| GoogleMap.RoutePath | src/components/ui/google-map.tsx:137-142 | the path is start, each stop in order, then end |
| GoogleMap.MoveBus | src/components/ui/google-map.tsx:156-157 | Move is the shared guard plus the need for both marker and map |
| GoogleMap.InitialPage | src/components/ui/google-map.tsx:32-38 | the page starts with no key, no map, no marker, not loaded, index 0, no timer, and no seat count reported (the component reports none on load) |
| GoogleMap.ResetBus | src/components/ui/google-map.tsx:189-196 | as written: with a marker, reset returns to index 0, not animating, bus at start, initial seats reported, and every running leg timer kept; without one nothing changes |
| GoogleMap.ResetBusCancelling | src/components/ui/google-map.tsx:189-196 | corrected reset: the same, with no leg timer left running; it differs from the as-written reset only in the timers |
| GoogleMap.StopLine | src/components/ui/google-map.tsx:243-246 | the stop line shows iff the map is loaded, with the shared label |
| GoogleMap.LegIsEven | src/components/ui/google-map.tsx:166-176 | each tick moves by a hundredth of the leg |
| GoogleMap.MapNeverLoads | src/components/ui/google-map.tsx:198-223 | as written, no sequence of typing and clicks ever loads the map, moves the bus or reports a seat count |
| GoogleMap.NeverLoadsFrom | src/components/ui/google-map.tsx:198-223 | from any unloaded page every event keeps it unloaded, with no map, no marker and no progress |
| GoogleMap.FixedViewOf | src/components/ui/google-map.tsx:198-223 | corrected page: the key form shows iff the map has not loaded |
| GoogleMap.FixedUiStep | src/components/ui/google-map.tsx:198-223 | corrected page: Load Map with a typed key and a successful load loads the map and creates the marker |
| GoogleMap.FixedPageLoadsAndMoves | src/components/ui/google-map.tsx:198-223 | corrected page: typing a key and loading shows the map with no seat count reported yet; Move then sets off to the first stop |
| CrowdDetector.CheckFile | src/components/crowd-detection/CrowdDetector.tsx:23-46 | no file; a non-`image/` type; an image over 5 MiB; otherwise accepted — each exactly under its condition |
| CrowdDetector.TypeCheckedBeforeSize | src/components/crowd-detection/CrowdDetector.tsx:28-35 | a non-image is rejected as invalid whatever its size |
| CrowdDetector.SizeCapIsInclusive | src/components/crowd-detection/CrowdDetector.tsx:38 | exactly 5·1024·1024 bytes passes and one more byte does not |
| CrowdDetector.Payload | src/components/crowd-detection/CrowdDetector.tsx:52 | `split(",")[1]` is undefined iff there is no comma, and never contains a comma |
| CrowdDetector.PayloadOfDataUrl | src/components/crowd-detection/CrowdDetector.tsx:49-52 | a `data:<type>;base64,<data>` URL yields exactly its data |
| CrowdDetector.BeginAnalysis | src/components/crowd-detection/CrowdDetector.tsx:58-59 | entering analysis shows the spinner and clears the previous result |
| CrowdDetector.FinishAnalysis | src/components/crowd-detection/CrowdDetector.tsx:66-88 | a clean answer becomes the result with a "complete" toast; an invoke error or a non-empty `error` field keeps the result and toasts a failure; the spinner always goes |
| CrowdDetector.AnalyzeImage | src/components/crowd-detection/CrowdDetector.tsx:57-89 | after an analysis there is a result iff the call succeeded with no error field |
| CrowdDetector.FailedAnalysisClearsResult | src/components/crowd-detection/CrowdDetector.tsx:58-72 | a failed analysis leaves no result, not even the previous one |
| CrowdDetector.CrowdColor | src/components/crowd-detection/CrowdDetector.tsx:91-104 | the muted colour shows iff the level is not one of the four |
| CrowdDetector.CrowdLabel | src/components/crowd-detection/CrowdDetector.tsx:106-119 | the label is `Unknown` iff the level is not one of the four |
| CrowdDetector.KnownLevelsDistinguished | src/components/crowd-detection/CrowdDetector.tsx:91-119 | the four levels have four different labels and colours |
| CrowdDetector.ReplaceFirst | src/components/crowd-detection/CrowdDetector.tsx:194 | replace keeps the length and every character that is not the pattern, and leaves a pattern-free string unchanged |
| CrowdDetector.ReplaceFirstOnlyFirst | src/components/crowd-detection/CrowdDetector.tsx:194 | only the first `_` is replaced; later ones stay |
| CrowdDetector.DisplayLevel | src/components/crowd-detection/CrowdDetector.tsx:194 | the displayed level has the level's length |
| CrowdDetector.VeryHighShownWithSpace | src/components/crowd-detection/CrowdDetector.tsx:194 | `very_high` is displayed as `very high` |
| CrowdDetector.OtherLevelsShownAsIs | src/components/crowd-detection/CrowdDetector.tsx:194 | low, medium, high and unknown are displayed as they are |
| DetectCrowd.ServerError | supabase/functions/detect-crowd/index.ts:120-126 | the catch block answers 500 with JSON headers and the error's message, or `Unknown error` |
| DetectCrowd.Handle | supabase/functions/detect-crowd/index.ts:8-127 | OPTIONS gives 200, CORS headers, a null body and no upstream call; every other answer has JSON headers; the gateway is called iff there is an image and a key, with `data:image/jpeg;base64,<image>` |
| DetectCrowd.AfterGateway | supabase/functions/detect-crowd/index.ts:75-118 | the status is 200, 402, 429 or 500, and 200 iff the gateway answered ok with non-empty content |
| DetectCrowd.GatewayErrorStatus | supabase/functions/detect-crowd/index.ts:75-91 | a non-ok 429 or 402 passes through with its message; any other non-ok status is 500 `Failed to analyze image` |
| DetectCrowd.UnparseableContentFallsBack | supabase/functions/detect-crowd/index.ts:100-118 | content that is not JSON gives 200 with level `unknown`, zero counts and the raw content as the description |
| DetectCrowd.MissingImageIs400 | supabase/functions/detect-crowd/index.ts:16-21 | a missing or empty image is 400 `No image provided` whatever the key |
| DetectCrowd.MissingKeyIs500 | supabase/functions/detect-crowd/index.ts:23-26 | with an image but no key the answer is 500 with the key message and the gateway is not called |
| DetectCrowd.CardImageReachesGateway | src/components/crowd-detection/CrowdDetector.tsx:49-64 | the base64 data the card cuts from a file's data URL reaches the gateway unchanged |
| DetectCrowd.CommaFreeDataUrlIs400 | src/components/crowd-detection/CrowdDetector.tsx:52 | a data URL without a comma sends no image and gets 400 |
| DetectCrowd.FallbackShownAsUnknown | supabase/functions/detect-crowd/index.ts:106-112 | the fallback body shows on the card with the `Unknown` label and the muted colour |
| RouteSearch.HandleSearch | src/components/ui/route-search.tsx:22-31 | signed out: the prompt opens and nothing navigates; signed in with both fields: navigate to `/buses?from=E(origin)&to=E(destination)`; otherwise nothing |
| RouteSearch.HandleInputFocus | src/components/ui/route-search.tsx:33-37 | focus opens the prompt iff signed out, and the fields are untouched |
| RouteSearch.HandleLoginRedirect | src/components/ui/route-search.tsx:39-42 | the prompt closes and the page goes to `/login` |
| RouteSearch.SearchNavigatesIffEnabled | src/components/ui/route-search.tsx:22-31 | a search navigates iff signed in and the button is enabled |
| RouteSearch.QueryRoundTrip | src/components/ui/route-search.tsx:29 | both encoded values can be read back from the path |
| RouteSearch.DistinctSearchesDistinctPaths | src/components/ui/route-search.tsx:29 | two searches reach the same page only when their encoded fields agree |

## Left out

- Backend, platform and browser calls are outside the model.
  - Supabase queries, upserts, auth and realtime channels, and the AI gateway `fetch`, are parameters or outcomes.
  - So are `FileReader`, `alert`, toasts and navigation.
  - `setTimeout`/`setInterval` are explicit pending timers or leaked-interval counts.
  - The channel's `removeChannel` cleanup and its unmount race are not modelled.
- Floating point is not modelled. Coordinates are reals and `Math.random` draws are reals in [0,1).
- `toLocaleTimeString` is a parameter of `LiveTracking.FormatTimestamp`.
- `JSON.parse` is an oracle in `DetectCrowd`. `JSON.stringify` and `JSON.parse` of the stored user are the identity in `AuthContext`.
- `encodeURIComponent` is an opaque parameter.
- BusSimulator.RoundTenth: `toFixed(1)` is round-half-up to one decimal on reals, not the binary-float rounding JavaScript performs.
- The hook reads table `buses`, while the simulator writes `positions`. The page also reads fields the hook's `Bus` type lacks. The two sides are modelled separately, and no pipeline between them is claimed.
- Signup's redirect of an already signed-in visitor (src/pages/Signup.tsx:32) and Profile's redirect of a signed-out one are left out: they are navigation only.
- Profile.ResendOtp: the earlier countdown interval is not cleared when a new one starts, so two intervals can tick at once. The model has one countdown that ticks once per tick, not per interval.
- Profile.DismissOtp: closing the dialog without Cancel leaves its countdown interval running, so a later `Profile.SendOtp` starts a second one. As with resend, the model keeps one countdown and does not track the number of intervals.
- Profile.FormatTime takes a natural number. Negative or fractional seconds never reach it.
- The Profile attempts counter and countdown are plain integers. The OTP send and resend delays and their "network error" branches are not modelled, because the awaited mock never fails.
- StopProgression.Complete requires that the timer exists and aims at an existing stop. A timer is only created for an existing stop, which `StopProgression.Step` preserves.
- StopProgression: the start position of a leg started while an old timer is still moving the marker is the position the model holds. The marker's intermediate positions are not tracked.
- The map widgets' panning, zoom, popups and glow styling are not modelled, nor are the Google loader's script loading and its error logging.
- CrowdDetector: a `null` `data` from the invoke would throw a `TypeError`, which is treated like any other failure. The preview image is not modelled.
- DetectCrowd: the request body is either unreadable or an object with an optional `imageBase64`. A non-string `imageBase64` is not modelled, and neither is the gateway request's prompt text.

## Findings

| source | as written | input that shows it | evidently intended | confidence | as-written member | corrected member |
|---|---|---|---|---|---|---|
| src/components/ui/leaflet-map.tsx:260-270 | Reset sets the index to 0 and clears `isAnimating`, but does not clear the running animation interval. That interval later adds one to the index again. The same holds in src/components/ui/google-map.tsx:189-196. | One stop. Press Move, then Reset while the bus is moving, then Move again; let both legs finish. The index reaches 2 with only one stop. | Reset cancels the running leg, so the index never exceeds the number of stops | medium, not executed | StopProgression.ResetDuringAnimationOvershoots | StopProgression.CancellingRunStaysInRange |
| src/components/ui/google-map.tsx:198-223 | "Load Map" is rendered only while `apiKey` is empty. It calls `initializeMap(apiKey)`, which returns at once for an empty key (line 41), and the map container is not mounted in that view. The first keystroke replaces the form with a map view that has no load button. | Type any key, then press Move: the map never loads and Move stays a no-op. | The key form, with the map container, stays until the map loads, and "Load Map" loads with the typed key | high, not executed | GoogleMap.MapNeverLoads | GoogleMap.FixedPageLoadsAndMoves |

Both map widgets' `ResetBus` model the reset as written, on `StopProgression.Reset`. Their `ResetBusCancelling` counterparts, on `StopProgression.ResetCancelling`, are the corrected resets; the corrected Google page (`GoogleMap.FixedUiStep`) uses `GoogleMap.ResetBusCancelling`.

=== FILE: auth_context.dfy ===
/** The mock authentication context: a user record and an
    `isAuthenticated` flag, the four operations that change them, and the
    two effects that mirror them into local storage under the keys
    `navbus_user` and `navbus_authenticated`. The stored user is kept as the
    record itself: `JSON.parse(JSON.stringify(u))` gives back `u` for a
    record of strings whose absent optional fields stay absent. */
module AuthContext {
  import opened Wrappers
  import opened Text

  datatype User = User(
    id: string,
    firstName: string,
    surname: string,
    email: string,
    dateOfBirth: Option<string>,
    location: Option<string>,
    contactNumber: Option<string>,
    phoneNumber: Option<string>)

  datatype AuthState = AuthState(user: Option<User>, isAuthenticated: bool)

  const SignedOut := AuthState(None, false)

  /** A user is held exactly when the flag is set. Every operation keeps this. */
  predicate Consistent(st: AuthState) {
    st.user.Some? <==> st.isAuthenticated
  }

  // ---------------------------------------------------------------- operations

  /** The fixed record every successful login produces, with the given email. */
  function MockUser(email: string): (u: User)
    ensures u.email == email
  {
    User("1", "John", "Doe", email, Some("1990-05-15"), Some("New York, NY"), Some(""), Some(""))
  }

  /** `login`: succeeds exactly when both arguments are non-empty; a
      failure changes nothing. */
  function Login(st: AuthState, email: string, password: string): (r: (AuthState, bool))
    ensures r.1 <==> email != "" && password != ""
    ensures r.1 ==> r.0.isAuthenticated && r.0.user.Some? && r.0.user.value.email == email
    ensures !r.1 ==> r.0 == st
  {
    if Truthy(email) && Truthy(password) then (AuthState(Some(MockUser(email)), true), true)
    else (st, false)
  }

  /** The `signup` argument: email and password, every other field optional. */
  datatype SignupData = SignupData(
    email: string,
    password: string,
    firstName: Option<string>,
    surname: Option<string>,
    dateOfBirth: Option<string>,
    location: Option<string>,
    contactNumber: Option<string>,
    phoneNumber: Option<string>)

  /** `field || ''`: a missing or empty field becomes the empty string. */
  function OrEmpty(o: Option<string>): (r: string)
    ensures o.Some? ==> r == o.value
    ensures o.None? ==> r == ""
  {
    match o
    case Some(v) => OrElse(v, "")
    case None => ""
  }

  /** `signup`: always succeeds; the id is the current time in
      milliseconds as a decimal string, the password is not kept. */
  function Signup(data: SignupData, now: nat): (r: (AuthState, bool))
    ensures r.1 && r.0.isAuthenticated && r.0.user.Some?
    ensures var u := r.0.user.value;
            u.email == data.email && u.id == NatToString(now)
            && u.firstName == OrEmpty(data.firstName) && u.surname == OrEmpty(data.surname)
            && u.dateOfBirth == Some(OrEmpty(data.dateOfBirth)) && u.location == Some(OrEmpty(data.location))
            && u.contactNumber == Some(OrEmpty(data.contactNumber))
            && u.phoneNumber == Some(OrEmpty(data.phoneNumber))
  {
    var u := User(NatToString(now), OrEmpty(data.firstName), OrEmpty(data.surname), data.email,
                  Some(OrEmpty(data.dateOfBirth)), Some(OrEmpty(data.location)),
                  Some(OrEmpty(data.contactNumber)), Some(OrEmpty(data.phoneNumber)));
    (AuthState(Some(u), true), true)
  }

  /** `logout`. */
  function Logout(st: AuthState): (r: AuthState)
    ensures r.user.None? && !r.isAuthenticated
  {
    SignedOut
  }

  /** A `Partial<User>`: each present field overwrites the user's. */
  datatype UserPatch = UserPatch(
    id: Option<string>,
    firstName: Option<string>,
    surname: Option<string>,
    email: Option<string>,
    dateOfBirth: Option<string>,
    location: Option<string>,
    contactNumber: Option<string>,
    phoneNumber: Option<string>)

  const EmptyPatch := UserPatch(None, None, None, None, None, None, None, None)

  function Over(o: Option<string>, v: string): string {
    match o
    case Some(p) => p
    case None => v
  }

  function OverOpt(o: Option<string>, v: Option<string>): Option<string> {
    if o.Some? then o else v
  }

  /** `{ ...user, ...patch }`. */
  function Merge(u: User, p: UserPatch): (r: User)
    ensures p.id.Some? ==> r.id == p.id.value
    ensures p.id.None? ==> r.id == u.id
    ensures p.email.Some? ==> r.email == p.email.value
    ensures p.email.None? ==> r.email == u.email
    ensures p.firstName.Some? ==> r.firstName == p.firstName.value
    ensures p.firstName.None? ==> r.firstName == u.firstName
    ensures p.surname.Some? ==> r.surname == p.surname.value
    ensures p.surname.None? ==> r.surname == u.surname
    ensures p.dateOfBirth.Some? ==> r.dateOfBirth == p.dateOfBirth
    ensures p.dateOfBirth.None? ==> r.dateOfBirth == u.dateOfBirth
    ensures p.location.Some? ==> r.location == p.location
    ensures p.location.None? ==> r.location == u.location
    ensures p.contactNumber.Some? ==> r.contactNumber == p.contactNumber
    ensures p.contactNumber.None? ==> r.contactNumber == u.contactNumber
    ensures p.phoneNumber.Some? ==> r.phoneNumber == p.phoneNumber
    ensures p.phoneNumber.None? ==> r.phoneNumber == u.phoneNumber
  {
    User(Over(p.id, u.id), Over(p.firstName, u.firstName), Over(p.surname, u.surname), Over(p.email, u.email),
         OverOpt(p.dateOfBirth, u.dateOfBirth), OverOpt(p.location, u.location),
         OverOpt(p.contactNumber, u.contactNumber), OverOpt(p.phoneNumber, u.phoneNumber))
  }

  /** `updateUser`: merges the patch into the user, and does nothing when
      there is no user; the flag is never touched. */
  function UpdateUser(st: AuthState, p: UserPatch): (r: AuthState)
    ensures st.user.None? ==> r == st
    ensures st.user.Some? ==> r.user == Some(Merge(st.user.value, p))
    ensures r.isAuthenticated == st.isAuthenticated
  {
    match st.user
    case None => st
    case Some(u) => st.(user := Some(Merge(u, p)))
  }

  /** An empty patch changes nothing; applying the same patch twice is
      applying it once; a later patch wins over an earlier one. */
  lemma MergeLaws(u: User, p: UserPatch, q: UserPatch)
    ensures Merge(u, EmptyPatch) == u
    ensures Merge(Merge(u, p), p) == Merge(u, p)
    ensures q.email.Some? ==> Merge(Merge(u, p), q).email == q.email.value
  {
  }

  /** Every operation preserves Consistent. */
  lemma OperationsKeepConsistent(st: AuthState, email: string, password: string,
                                 data: SignupData, now: nat, p: UserPatch)
    requires Consistent(st)
    ensures Consistent(Login(st, email, password).0)
    ensures Consistent(Signup(data, now).0)
    ensures Consistent(Logout(st))
    ensures Consistent(UpdateUser(st, p))
  {
  }

  /** After logout, `updateUser` is a no-op. */
  lemma UpdateAfterLogoutIsNoop(st: AuthState, p: UserPatch)
    ensures UpdateUser(Logout(st), p) == SignedOut
  {
  }

  // ---------------------------------------------------------------- storage

  /** The two local-storage entries. */
  datatype Storage = Storage(savedUser: Option<User>, savedAuth: Option<string>)

  /** The sync effect: both keys written when a user is held and the flag
      is set, both removed otherwise. */
  function Sync(st: AuthState): (s: Storage)
    ensures s.savedUser.Some? <==> st.user.Some? && st.isAuthenticated
    ensures s.savedAuth.Some? <==> s.savedUser.Some?
    ensures s.savedUser.Some? ==> s.savedUser == st.user && s.savedAuth == Some("true")
  {
    if st.user.Some? && st.isAuthenticated then Storage(st.user, Some("true")) else Storage(None, None)
  }

  /** The restore effect: the saved user is adopted only when one exists
      and the saved flag is exactly `"true"`. */
  function Restore(st: AuthState, s: Storage): (r: AuthState)
    ensures s.savedUser.Some? && s.savedAuth == Some("true") ==> r == AuthState(s.savedUser, true)
    ensures !(s.savedUser.Some? && s.savedAuth == Some("true")) ==> r == st
  {
    if s.savedUser.Some? && s.savedAuth == Some("true") then AuthState(s.savedUser, true) else st
  }

  /** A consistent state survives a reload: what the sync effect stores,
      the restore effect on a fresh provider reads back. */
  lemma SyncRestoreRoundTrip(st: AuthState)
    requires Consistent(st)
    ensures Restore(SignedOut, Sync(st)) == st
  {
  }

  /** The mount sequence: restore, then sync the state that results. Stored
      entries the sync effect wrote are a fixed point, and whatever was
      stored, the storage afterwards agrees with the state. */
  function Mount(s: Storage): (r: (AuthState, Storage))
    ensures Consistent(r.0)
    ensures r.1 == Sync(r.0)
  {
    var st := Restore(SignedOut, s);
    (st, Sync(st))
  }

  lemma MountIsStable(st: AuthState)
    requires Consistent(st)
    ensures Mount(Sync(st)) == (st, Sync(st))
  {
    SyncRestoreRoundTrip(st);
  }

  /** Storage with a user but a flag other than `"true"` is discarded at mount. */
  lemma MountDiscardsUnflaggedUser(u: User, flag: Option<string>)
    requires flag != Some("true")
    ensures Mount(Storage(Some(u), flag)) == (SignedOut, Storage(None, None))
  {
  }
}

=== FILE: bus_simulator.dfy ===
/** The `BusSimulator` service: a fixed roster of six simulated buses whose
    positions drift by a small random amount on every tick and are written
    to the `positions` table in one batch. `Math.random()` draws, the clock
    and the backend's answers are parameters; the clock is read once per row. */
module BusSimulator {
  import opened Wrappers

  /** A simulated bus: its current coordinates and route label. */
  datatype Vehicle = Vehicle(lat: real, lon: real, route: string)

  /** One entry of the roster map, in insertion order. */
  datatype RosterEntry = RosterEntry(vehicleId: string, vehicle: Vehicle)

  /** The simulator object: the roster, whether `intervalId` holds a timer,
      and how many running intervals were orphaned because `start()`
      overwrote `intervalId` while it still held one. */
  datatype Simulator = Simulator(roster: seq<RosterEntry>, timerArmed: bool, orphaned: nat) {
    /** True while some interval is still firing. */
    predicate Ticking() {
      timerArmed || orphaned > 0
    }
  }

  /** What one vehicle's row consumes per tick: four `Math.random()` values
      and the clock reading its own `new Date().toISOString()` call returns. */
  datatype Draws = Draws(lat: real, lon: real, speed: real, heading: real, ts: string)

  /** A row written to `positions`. */
  datatype Position = Position(vehicleId: string, lat: real, lon: real,
                               speed: real, heading: int, ts: string)

  /** A row written to `vehicle_operators` when the simulator starts. */
  datatype Assignment = Assignment(userId: string, vehicleId: string)

  /** What `start()` did: the assignments it upserted (if it got that far),
      the batch it sent (if it got that far), and the new simulator. */
  datatype StartResult = StartResult(sim: Simulator, assignments: Option<seq<Assignment>>,
                                     batch: Option<seq<Position>>)

  /** Per-axis movement per tick: `(Math.random() - 0.5) * 0.0015` lies in
      `[-MaxStep, MaxStep)`. */
  const MaxStep: real := 0.00075

  /** The interval between ticks, in milliseconds. */
  const TickMillis: nat := 5000

  predicate IsRandom(r: real) {
    0.0 <= r < 1.0
  }

  predicate ValidDraws(d: Draws) {
    IsRandom(d.lat) && IsRandom(d.lon) && IsRandom(d.speed) && IsRandom(d.heading)
  }

  predicate ValidRound(round: seq<Draws>, n: nat) {
    |round| == n && forall i :: 0 <= i < |round| ==> ValidDraws(round[i])
  }

  function Abs(x: real): real {
    if x < 0.0 then -x else x
  }

  /** The roster built by the constructor. */
  function InitialRoster(): seq<RosterEntry> {
    [ RosterEntry("TSRTC-45A-001", Vehicle(17.4239, 78.4521, "45A")),
      RosterEntry("TSRTC-23B-002", Vehicle(17.4486, 78.4712, "23B")),
      RosterEntry("TSRTC-10H-003", Vehicle(17.4399, 78.4983, "10H")),
      RosterEntry("TSRTC-49M-004", Vehicle(17.3955, 78.4346, "49M")),
      RosterEntry("TSRTC-8C-005", Vehicle(17.3850, 78.4867, "8C")),
      RosterEntry("TSRTC-218D-006", Vehicle(17.3536, 78.5286, "218D")) ]
  }

  function VehicleIds(roster: seq<RosterEntry>): seq<string> {
    seq(|roster|, i requires 0 <= i < |roster| => roster[i].vehicleId)
  }

  /** `new BusSimulator()`: six buses with distinct ids and no timer. */
  function NewSimulator(): (s: Simulator)
    ensures |s.roster| == 6 && !s.Ticking()
    ensures VehicleIds(s.roster) == ["TSRTC-45A-001", "TSRTC-23B-002", "TSRTC-10H-003",
                                     "TSRTC-49M-004", "TSRTC-8C-005", "TSRTC-218D-006"]
    ensures forall i, j :: 0 <= i < j < |s.roster| ==> s.roster[i].vehicleId != s.roster[j].vehicleId
    ensures forall i :: 0 <= i < |s.roster| ==>
              s.roster[i].vehicleId == "TSRTC-" + s.roster[i].vehicle.route + "-00" + [('1' as int + i) as char]
  {
    Simulator(InitialRoster(), false, 0)
  }

  /** The coordinate change one draw produces. */
  function Step(r: real): (d: real)
    requires IsRandom(r)
    ensures -MaxStep <= d < MaxStep
  {
    (r - 0.5) * 0.0015
  }

  /** `+(x).toFixed(1)` on a non-negative value, as round-half-up to one decimal. */
  function RoundTenth(x: real): (y: real)
    requires x >= 0.0
    ensures x - 0.05 < y <= x + 0.05
  {
    ((x * 10.0 + 0.5).Floor as real) / 10.0
  }

  /** `+(20 + Math.random() * 30).toFixed(1)`. */
  function Speed(r: real): (s: real)
    requires IsRandom(r)
    ensures 20.0 <= s <= 50.0
  {
    var s := RoundTenth(20.0 + r * 30.0);
    assert s >= 20.0 by {
      assert (200.0 + r * 300.0 + 0.5).Floor >= 200;
    }
    assert s <= 50.0 by {
      assert (200.0 + r * 300.0 + 0.5).Floor <= 500;
    }
    s
  }

  /** `Math.floor(Math.random() * 360)`. */
  function Heading(r: real): (h: int)
    requires IsRandom(r)
    ensures 0 <= h < 360
  {
    (r * 360.0).Floor
  }

  /** The roster after one tick: every bus moved by its own draws, ids and routes untouched. */
  function Advance(roster: seq<RosterEntry>, round: seq<Draws>): (r: seq<RosterEntry>)
    requires ValidRound(round, |roster|)
    ensures |r| == |roster|
    ensures forall i :: 0 <= i < |r| ==>
              && r[i].vehicleId == roster[i].vehicleId
              && r[i].vehicle.route == roster[i].vehicle.route
              && Abs(r[i].vehicle.lat - roster[i].vehicle.lat) <= MaxStep
              && Abs(r[i].vehicle.lon - roster[i].vehicle.lon) <= MaxStep
  {
    if |roster| == 0 then []
    else
      var e := roster[0];
      var v := e.vehicle.(lat := e.vehicle.lat + Step(round[0].lat),
                          lon := e.vehicle.lon + Step(round[0].lon));
      [e.(vehicle := v)] + Advance(roster[1..], round[1..])
  }

  /** The rows of one batch, built from the already-moved roster. */
  function Batch(moved: seq<RosterEntry>, round: seq<Draws>): (b: seq<Position>)
    requires ValidRound(round, |moved|)
    ensures |b| == |moved|
    ensures forall i :: 0 <= i < |b| ==>
              && b[i].vehicleId == moved[i].vehicleId
              && b[i].lat == moved[i].vehicle.lat && b[i].lon == moved[i].vehicle.lon
              && 20.0 <= b[i].speed <= 50.0 && 0 <= b[i].heading < 360
              && b[i].ts == round[i].ts
  {
    seq(|moved|, i requires 0 <= i < |moved| =>
      Position(moved[i].vehicleId, moved[i].vehicle.lat, moved[i].vehicle.lon,
               Speed(round[i].speed), Heading(round[i].heading), round[i].ts))
  }

  /** `sendAllPositions()`: move every bus, then insert one row per bus in a
      single batch. The roster has moved whatever the insert returns, and a
      failed insert (only logged) leaves the timer armed. */
  function SendAllPositions(sim: Simulator, round: seq<Draws>): (r: (Simulator, seq<Position>))
    requires ValidRound(round, |sim.roster|)
    ensures r.0.timerArmed == sim.timerArmed && r.0.orphaned == sim.orphaned
    ensures |r.0.roster| == |sim.roster| && |r.1| == |sim.roster|
    ensures VehicleIds(r.0.roster) == VehicleIds(sim.roster)
    ensures VehicleIds(r.0.roster) == seq(|r.1|, i requires 0 <= i < |r.1| => r.1[i].vehicleId)
  {
    var moved := Advance(sim.roster, round);
    (sim.(roster := moved), Batch(moved, round))
  }

  /** `start()`: with no signed-in user, or when the operator upsert fails,
      it returns having sent nothing and armed nothing; otherwise it sends
      one round at once and arms the five-second interval. It has no guard
      against an already armed timer. */
  function Start(sim: Simulator, user: Option<string>, upsertOk: bool,
                 round: seq<Draws>): (r: StartResult)
    requires ValidRound(round, |sim.roster|)
    ensures user.None? ==> r == StartResult(sim, None, None)
    ensures user.Some? && !upsertOk ==> r.sim == sim && r.batch.None?
    ensures user.Some? ==> r.assignments.Some? && |r.assignments.value| == |sim.roster|
    ensures user.Some? ==> forall i :: 0 <= i < |sim.roster| ==>
              r.assignments.value[i] == Assignment(user.value, sim.roster[i].vehicleId)
    ensures r.batch.Some? <==> user.Some? && upsertOk
    ensures r.sim.timerArmed <==> sim.timerArmed || (user.Some? && upsertOk)
    ensures r.sim.orphaned == sim.orphaned + (if sim.timerArmed && user.Some? && upsertOk then 1 else 0)
    ensures r.batch.Some? ==> |r.batch.value| == |sim.roster|
  {
    match user
    case None => StartResult(sim, None, None)
    case Some(uid) =>
      var assignments := seq(|sim.roster|, i requires 0 <= i < |sim.roster| =>
                               Assignment(uid, sim.roster[i].vehicleId));
      if !upsertOk then StartResult(sim, Some(assignments), None)
      else
        var (sim', batch) := SendAllPositions(sim, round);
        var orphaned := sim.orphaned + (if sim.timerArmed then 1 else 0);
        StartResult(sim'.(timerArmed := true, orphaned := orphaned), Some(assignments), Some(batch))
  }

  /** `stop()`: clears the timer `intervalId` holds; a no-op when none is
      armed. Orphaned intervals are out of its reach. */
  function Stop(sim: Simulator): (s: Simulator)
    ensures !s.timerArmed && s.roster == sim.roster && s.orphaned == sim.orphaned
    ensures !sim.timerArmed ==> s == sim
  {
    if sim.timerArmed then sim.(timerArmed := false) else sim
  }

  /** One firing of an interval: there is one only while some timer runs. */
  function IntervalFires(sim: Simulator, round: seq<Draws>): (r: (Simulator, Option<seq<Position>>))
    requires ValidRound(round, |sim.roster|)
    ensures !sim.Ticking() ==> r == (sim, None)
    ensures sim.Ticking() ==> r.0.Ticking() && r.1.Some? && |r.1.value| == |sim.roster|
  {
    if !sim.Ticking() then (sim, None)
    else
      var (s, b) := SendAllPositions(sim, round);
      (s, Some(b))
  }

  /** The roster after a sequence of ticks. */
  function RunTicks(roster: seq<RosterEntry>, rounds: seq<seq<Draws>>): (r: seq<RosterEntry>)
    requires forall k :: 0 <= k < |rounds| ==> ValidRound(rounds[k], |roster|)
    ensures |r| == |roster|
    decreases |rounds|
  {
    if |rounds| == 0 then roster else RunTicks(Advance(roster, rounds[0]), rounds[1..])
  }

  /** After N ticks every bus is within N * 0.00075 of where it started on
      each axis, and it keeps its id and route. */
  lemma {:induction false} DriftBounded(roster: seq<RosterEntry>, rounds: seq<seq<Draws>>)
    requires forall k :: 0 <= k < |rounds| ==> ValidRound(rounds[k], |roster|)
    ensures forall i :: 0 <= i < |roster| ==>
              var e := RunTicks(roster, rounds)[i];
              && e.vehicleId == roster[i].vehicleId && e.vehicle.route == roster[i].vehicle.route
              && Abs(e.vehicle.lat - roster[i].vehicle.lat) <= |rounds| as real * MaxStep
              && Abs(e.vehicle.lon - roster[i].vehicle.lon) <= |rounds| as real * MaxStep
    decreases |rounds|
  {
    if |rounds| > 0 {
      var next := Advance(roster, rounds[0]);
      DriftBounded(next, rounds[1..]);
      assert RunTicks(roster, rounds) == RunTicks(next, rounds[1..]);
    }
  }

  /** The module-level singleton slot behind `getSimulator()`. */
  datatype Registry = Registry(instance: Option<Simulator>)

  /** `getSimulator()`: creates the instance on first use, then always hands back the stored one. */
  function GetSimulator(reg: Registry): (r: (Registry, Simulator))
    ensures r.0.instance == Some(r.1)
    ensures reg.instance.Some? ==> r.1 == reg.instance.value && r.0 == reg
    ensures reg.instance.None? ==> r.1 == NewSimulator()
  {
    match reg.instance
    case Some(s) => (reg, s)
    case None => (Registry(Some(NewSimulator())), NewSimulator())
  }

  /** Two calls in a row return the same instance and leave the slot alone. */
  lemma GetSimulatorStable(reg: Registry)
    ensures var (reg1, s1) := GetSimulator(reg);
            GetSimulator(reg1) == (reg1, s1)
  {
  }

  /** `start()` is not idempotent: two successful starts followed by
      `stop()` leave an interval firing, which nothing can clear any more. */
  lemma DoubleStartLeaksTimer(user: string, r1: seq<Draws>, r2: seq<Draws>, r3: seq<Draws>)
    requires ValidRound(r1, 6) && ValidRound(r2, 6) && ValidRound(r3, 6)
    ensures var s1 := Start(NewSimulator(), Some(user), true, r1).sim;
            var s2 := Start(s1, Some(user), true, r2).sim;
            var s3 := Stop(s2);
            s3.orphaned == 1 && IntervalFires(s3, r3).1.Some?
  {
  }

  /** Stopping a simulator that was never started changes nothing. */
  lemma StopNeverStartedIsNoop()
    ensures Stop(NewSimulator()) == NewSimulator()
  {
  }
}

=== FILE: bus_tracking.dfy ===
/** The realtime bus list kept by the `useBusTracking` hook: one bulk read
    of the `buses` table, then INSERT / UPDATE / DELETE change events
    applied to the list, matched on the row's `id`. */
module BusTracking {
  import opened Wrappers

  /** A row of the `buses` table. */
  datatype Bus = Bus(id: string, busNumber: string, routeName: string,
                     status: Option<string>, createdAt: string)

  /** A change-feed payload, classified by its `eventType`. */
  datatype ChangeEvent =
    | Insert(newRow: Bus)
    | Update(newRow: Bus)
    | Delete(oldRow: Bus)
    | OtherEvent

  /** The outcome of the initial `select` on `buses`. */
  datatype FetchOutcome =
    | Fetched(data: Option<seq<Bus>>)       // `{ data, error: null }`
    | FetchFailed(message: string)          // `{ error: fetchError }`
    | FetchThrew(reason: Option<string>)    // the awaited call rejected

  /** The hook's state: `buses`, `isLoading`, `error`, and whether the
      change-feed channel has been opened. */
  datatype TrackingState = TrackingState(buses: seq<Bus>, isLoading: bool,
                                         error: Option<string>, subscribed: bool)

  const Initial := TrackingState([], true, None, false)

  /** The number of rows carrying `id`. */
  function CountId(buses: seq<Bus>, id: string): nat {
    if |buses| == 0 then 0
    else (if buses[0].id == id then 1 else 0) + CountId(buses[1..], id)
  }

  /** The set of ids present in the list. */
  function IdSet(buses: seq<Bus>): set<string> {
    set i | 0 <= i < |buses| :: buses[i].id
  }

  /** No id occurs twice. */
  predicate DistinctIds(buses: seq<Bus>) {
    forall i, j :: 0 <= i < j < |buses| ==> buses[i].id != buses[j].id
  }

  /** INSERT: `[...prev, payload.new]`, with no check for an existing id. */
  function Append(buses: seq<Bus>, row: Bus): (r: seq<Bus>)
    ensures |r| == |buses| + 1 && r[..|buses|] == buses && r[|buses|] == row
  {
    buses + [row]
  }

  /** UPDATE: `prev.map(bus => bus.id === new.id ? new : bus)`. */
  function ReplaceById(buses: seq<Bus>, row: Bus): (r: seq<Bus>)
    ensures |r| == |buses|
    ensures forall i :: 0 <= i < |buses| && buses[i].id == row.id ==> r[i] == row
    ensures forall i :: 0 <= i < |buses| && buses[i].id != row.id ==> r[i] == buses[i]
  {
    if |buses| == 0 then []
    else [if buses[0].id == row.id then row else buses[0]] + ReplaceById(buses[1..], row)
  }

  /** DELETE: `prev.filter(bus => bus.id !== old.id)`. */
  function RemoveById(buses: seq<Bus>, id: string): (r: seq<Bus>)
    ensures |r| == |buses| - CountId(buses, id)
    ensures forall b :: b in r <==> b in buses && b.id != id
  {
    if |buses| == 0 then []
    else if buses[0].id == id then RemoveById(buses[1..], id)
    else [buses[0]] + RemoveById(buses[1..], id)
  }

  /** The payload handler registered on the channel. */
  function Apply(buses: seq<Bus>, ev: ChangeEvent): seq<Bus> {
    match ev
    case Insert(row) => Append(buses, row)
    case Update(row) => ReplaceById(buses, row)
    case Delete(row) => RemoveById(buses, row.id)
    case OtherEvent => buses
  }

  /** Applying a stream of events in arrival order. */
  function ApplyAll(buses: seq<Bus>, evs: seq<ChangeEvent>): seq<Bus>
    decreases |evs|
  {
    if |evs| == 0 then buses else ApplyAll(Apply(buses, evs[0]), evs[1..])
  }

  /** The ids an event stream inserts. */
  function InsertedIds(evs: seq<ChangeEvent>): set<string> {
    set i | 0 <= i < |evs| && evs[i].Insert? :: evs[i].newRow.id
  }

  /** `setupRealtimeSubscription`: store the fetched rows (`[]` for a null
      `data`) or the error, clear `isLoading`, and then open the channel;
      a rejected call lands in the catch block, which opens nothing. */
  function Bootstrap(outcome: FetchOutcome): (s: TrackingState)
    ensures !s.isLoading
    ensures s.error.None? <==> outcome.Fetched?
    ensures s.subscribed <==> !outcome.FetchThrew?
    ensures outcome.Fetched? ==> s.buses == outcome.data.GetOr([])
    ensures !outcome.Fetched? ==> s.buses == []
    ensures outcome.FetchFailed? ==> s.error == Some(outcome.message)
  {
    match outcome
    case Fetched(data) => TrackingState(data.GetOr([]), false, None, true)
    case FetchFailed(msg) => TrackingState([], false, Some(msg), true)
    case FetchThrew(msg) => TrackingState([], false, Some(msg.GetOr("Unknown error")), false)
  }

  /** A change event reaches the list only through an open channel. */
  function OnEvent(s: TrackingState, ev: ChangeEvent): (s': TrackingState)
    ensures s'.isLoading == s.isLoading && s'.error == s.error && s'.subscribed == s.subscribed
    ensures !s.subscribed ==> s' == s
    ensures s.subscribed && ev.Insert? ==> |s'.buses| == |s.buses| + 1
    ensures s.subscribed && ev.Update? ==> |s'.buses| == |s.buses|
    ensures s.subscribed && ev.Delete? ==> |s'.buses| <= |s.buses|
    ensures ev.OtherEvent? ==> s' == s
  {
    if s.subscribed then s.(buses := Apply(s.buses, ev)) else s
  }

  lemma CountIdAppend(buses: seq<Bus>, row: Bus, id: string)
    ensures CountId(buses + [row], id) == CountId(buses, id) + (if row.id == id then 1 else 0)
  {
    if |buses| > 0 {
      assert (buses + [row])[1..] == buses[1..] + [row];
      CountIdAppend(buses[1..], row, id);
    }
  }

  lemma CountIdPositive(buses: seq<Bus>, id: string)
    ensures CountId(buses, id) > 0 <==> id in IdSet(buses)
  {
    if |buses| > 0 {
      CountIdPositive(buses[1..], id);
      assert IdSet(buses) == {buses[0].id} + IdSet(buses[1..]) by {
        forall x | x in IdSet(buses) ensures x in {buses[0].id} + IdSet(buses[1..]) {
          var i :| 0 <= i < |buses| && buses[i].id == x;
          if i > 0 { assert buses[1..][i - 1].id == x; }
        }
      }
    }
  }

  /** INSERT never deduplicates: inserting a row whose id is already
      present makes that id occur one more time. */
  lemma InsertDoesNotDedupe(buses: seq<Bus>, row: Bus)
    ensures CountId(Apply(buses, Insert(row)), row.id) == CountId(buses, row.id) + 1
    ensures row.id in IdSet(buses) ==> !DistinctIds(Apply(buses, Insert(row)))
  {
    CountIdAppend(buses, row, row.id);
    if row.id in IdSet(buses) {
      var i :| 0 <= i < |buses| && buses[i].id == row.id;
      var r := Apply(buses, Insert(row));
      assert r[i].id == r[|buses|].id;
    }
  }

  /** An INSERT of an unseen id keeps ids distinct and adds exactly that id. */
  lemma InsertFreshKeepsDistinct(buses: seq<Bus>, row: Bus)
    requires DistinctIds(buses) && row.id !in IdSet(buses)
    ensures DistinctIds(Apply(buses, Insert(row)))
    ensures IdSet(Apply(buses, Insert(row))) == IdSet(buses) + {row.id}
  {
    var r := Apply(buses, Insert(row));
    forall i, j | 0 <= i < j < |r| ensures r[i].id != r[j].id {
      if j == |buses| {
        assert r[i].id in IdSet(buses);
      }
    }
    assert IdSet(r) == IdSet(buses) + {row.id} by {
      forall x | x in IdSet(r) ensures x in IdSet(buses) + {row.id} {
        var i :| 0 <= i < |r| && r[i].id == x;
        if i < |buses| { assert buses[i].id == x; }
      }
      assert r[|buses|].id == row.id;
      forall x | x in IdSet(buses) ensures x in IdSet(r) {
        var i :| 0 <= i < |buses| && buses[i].id == x;
        assert r[i].id == x;
      }
    }
  }

  /** UPDATE keeps the id at every position, so it keeps the id set and
      distinctness. */
  lemma UpdateKeepsIds(buses: seq<Bus>, row: Bus)
    ensures forall i :: 0 <= i < |buses| ==> Apply(buses, Update(row))[i].id == buses[i].id
    ensures IdSet(Apply(buses, Update(row))) == IdSet(buses)
    ensures DistinctIds(buses) ==> DistinctIds(Apply(buses, Update(row)))
  {
    var r := Apply(buses, Update(row));
    assert forall i :: 0 <= i < |buses| ==> r[i].id == buses[i].id;
    assert IdSet(r) == IdSet(buses) by {
      forall x | x in IdSet(r) ensures x in IdSet(buses) {
        var i :| 0 <= i < |r| && r[i].id == x;
        assert buses[i].id == x;
      }
      forall x | x in IdSet(buses) ensures x in IdSet(r) {
        var i :| 0 <= i < |buses| && buses[i].id == x;
        assert r[i].id == x;
      }
    }
  }

  /** UPDATE for an id that is not in the list leaves it unchanged. */
  lemma UpdateAbsentIsNoop(buses: seq<Bus>, row: Bus)
    requires row.id !in IdSet(buses)
    ensures Apply(buses, Update(row)) == buses
  {
    var r := Apply(buses, Update(row));
    forall i | 0 <= i < |buses| ensures r[i] == buses[i] {
      assert buses[i].id in IdSet(buses);
    }
  }

  /** Applying the same UPDATE twice is the same as applying it once. */
  lemma UpdateIdempotent(buses: seq<Bus>, row: Bus)
    ensures Apply(Apply(buses, Update(row)), Update(row)) == Apply(buses, Update(row))
  {
  }

  /** DELETE removes every row with the id, and only those. */
  lemma DeleteRemovesId(buses: seq<Bus>, row: Bus)
    ensures row.id !in IdSet(Apply(buses, Delete(row)))
    ensures IdSet(Apply(buses, Delete(row))) == IdSet(buses) - {row.id}
    ensures |Apply(buses, Delete(row))| == |buses| - CountId(buses, row.id)
  {
    var r := Apply(buses, Delete(row));
    assert IdSet(r) == IdSet(buses) - {row.id} by {
      forall x | x in IdSet(r) ensures x in IdSet(buses) - {row.id} {
        var i :| 0 <= i < |r| && r[i].id == x;
        assert r[i] in r;
        var j :| 0 <= j < |buses| && buses[j] == r[i];
      }
      forall x | x in IdSet(buses) - {row.id} ensures x in IdSet(r) {
        var i :| 0 <= i < |buses| && buses[i].id == x;
        assert buses[i] in buses;
        assert buses[i] in r;
        var j :| 0 <= j < |r| && r[j] == buses[i];
      }
    }
  }

  /** DELETE distributes over concatenation, so the survivors keep their
      relative order. */
  lemma {:induction false} DeleteKeepsOrder(xs: seq<Bus>, ys: seq<Bus>, id: string)
    ensures RemoveById(xs + ys, id) == RemoveById(xs, id) + RemoveById(ys, id)
    decreases |xs|
  {
    if |xs| > 0 {
      var s := xs + ys;
      assert s[0] == xs[0] && s[1..] == xs[1..] + ys;
      DeleteKeepsOrder(xs[1..], ys, id);
      if xs[0].id != id {
        calc {
          RemoveById(s, id);
          [xs[0]] + RemoveById(xs[1..] + ys, id);
          [xs[0]] + (RemoveById(xs[1..], id) + RemoveById(ys, id));
          ([xs[0]] + RemoveById(xs[1..], id)) + RemoveById(ys, id);
        }
      }
    } else {
      assert xs + ys == ys;
    }
  }

  /** DELETE for an id that is not in the list leaves it unchanged. */
  lemma {:induction false} DeleteAbsentIsNoop(buses: seq<Bus>, id: string)
    requires id !in IdSet(buses)
    ensures RemoveById(buses, id) == buses
    decreases |buses|
  {
    if |buses| > 0 {
      assert buses[0].id in IdSet(buses);
      assert IdSet(buses[1..]) <= IdSet(buses) by {
        forall x | x in IdSet(buses[1..]) ensures x in IdSet(buses) {
          var i :| 0 <= i < |buses[1..]| && buses[1..][i].id == x;
          assert buses[i + 1].id == x;
        }
      }
      DeleteAbsentIsNoop(buses[1..], id);
      assert buses == [buses[0]] + buses[1..];
    }
  }

  /** DELETE undoes an INSERT of a row whose id was not yet present. */
  lemma DeleteUndoesFreshInsert(buses: seq<Bus>, row: Bus)
    requires row.id !in IdSet(buses)
    ensures Apply(Apply(buses, Insert(row)), Delete(row)) == buses
  {
    DeleteKeepsOrder(buses, [row], row.id);
    DeleteAbsentIsNoop(buses, row.id);
    assert RemoveById([row], row.id) == [];
  }

  /** DELETE after UPDATE of the same id is the same as DELETE alone. */
  lemma {:induction false} DeleteAfterUpdate(buses: seq<Bus>, row: Bus)
    ensures Apply(Apply(buses, Update(row)), Delete(row)) == Apply(buses, Delete(row))
    decreases |buses|
  {
    if |buses| > 0 {
      DeleteAfterUpdate(buses[1..], row);
      var r := ReplaceById(buses, row);
      assert r[1..] == ReplaceById(buses[1..], row);
    }
  }

  /** An event stream never introduces an id that was neither present at
      the start nor carried by one of its INSERTs. */
  lemma {:induction false} ApplyAllIdsWithin(buses: seq<Bus>, evs: seq<ChangeEvent>)
    ensures IdSet(ApplyAll(buses, evs)) <= IdSet(buses) + InsertedIds(evs)
    decreases |evs|
  {
    if |evs| > 0 {
      var next := Apply(buses, evs[0]);
      ApplyAllIdsWithin(next, evs[1..]);
      assert InsertedIds(evs[1..]) <= InsertedIds(evs) by {
        forall x | x in InsertedIds(evs[1..]) ensures x in InsertedIds(evs) {
          var i :| 0 <= i < |evs[1..]| && evs[1..][i].Insert? && evs[1..][i].newRow.id == x;
          assert evs[i + 1].Insert? && evs[i + 1].newRow.id == x;
        }
      }
      match evs[0]
      case Insert(row) =>
        assert row.id in InsertedIds(evs) by { assert evs[0].Insert?; }
        assert IdSet(next) <= IdSet(buses) + {row.id} by {
          forall x | x in IdSet(next) ensures x in IdSet(buses) + {row.id} {
            var i :| 0 <= i < |next| && next[i].id == x;
            if i < |buses| { assert buses[i].id == x; }
          }
        }
      case Update(row) =>
        UpdateKeepsIds(buses, row);
      case Delete(row) =>
        DeleteRemovesId(buses, row);
      case OtherEvent =>
    }
  }

  /** A bootstrap read of K rows with K distinct ids gives a list of K
      entries keyed by exactly those ids. */
  lemma BootstrapDistinctRows(rows: seq<Bus>)
    requires DistinctIds(rows)
    ensures var s := Bootstrap(Fetched(Some(rows)));
            |s.buses| == |rows| && IdSet(s.buses) == IdSet(rows) && DistinctIds(s.buses)
  {
  }
}

=== FILE: crowd_detector.dfy ===
/** The crowd detector card: the checks on a chosen file, the base64
    payload cut from the file's data URL, the analysis call's outcome
    handling, and the mapping from a crowd level to its colour and label. */
module CrowdDetector {
  import opened Wrappers
  import opened Text

  // ---------------------------------------------------------------- file checks

  /** What the file input reports: MIME type and size in bytes. */
  datatype FileInfo = FileInfo(mimeType: string, size: nat)

  /** 5 MB, the largest file accepted. */
  const MaxBytes: nat := 5 * 1024 * 1024

  datatype FileCheck = NoFile | InvalidFile | FileTooLarge | Accepted

  /** `handleFileSelect`'s checks, in order: a file at all, an `image/`
      type, then the size. Only an accepted file is read. */
  function CheckFile(file: Option<FileInfo>): (c: FileCheck)
    ensures c == NoFile <==> file.None?
    ensures c == InvalidFile <==> file.Some? && !StartsWith(file.value.mimeType, "image/")
    ensures c == FileTooLarge <==> file.Some? && StartsWith(file.value.mimeType, "image/") && file.value.size > MaxBytes
    ensures c == Accepted <==> file.Some? && StartsWith(file.value.mimeType, "image/") && file.value.size <= MaxBytes
  {
    match file
    case None => NoFile
    case Some(f) =>
      if !StartsWith(f.mimeType, "image/") then InvalidFile
      else if f.size > MaxBytes then FileTooLarge
      else Accepted
  }

  /** The type is checked first: a non-image is rejected whatever its size. */
  lemma TypeCheckedBeforeSize(mimeType: string, size: nat)
    requires !StartsWith(mimeType, "image/")
    ensures CheckFile(Some(FileInfo(mimeType, size))) == InvalidFile
  {
  }

  /** The cap is inclusive: exactly 5 MB passes, one byte more does not. */
  lemma SizeCapIsInclusive(mimeType: string)
    requires StartsWith(mimeType, "image/")
    ensures CheckFile(Some(FileInfo(mimeType, MaxBytes))) == Accepted
    ensures CheckFile(Some(FileInfo(mimeType, MaxBytes + 1))) == FileTooLarge
  {
  }

  // ---------------------------------------------------------------- payload

  /** `dataUrl.split(",")[1]`: the text between the first and second comma,
      or nothing (`undefined`) when there is no comma. */
  function Payload(dataUrl: string): (r: Option<string>)
    ensures r.None? <==> ',' !in dataUrl
    ensures r.Some? ==> ',' !in r.value
  {
    var parts := Split(dataUrl, ',');
    CountCharZeroIff(dataUrl, ',');
    if |parts| >= 2 then Some(parts[1]) else None
  }

  /** A data URL as `FileReader` builds it, `data:<type>;base64,<data>`,
      yields exactly its base64 data: the base64 alphabet has no comma. */
  lemma PayloadOfDataUrl(mimeType: string, b64: string)
    requires ',' !in mimeType && ',' !in b64
    ensures Payload("data:" + mimeType + ";base64," + b64) == Some(b64)
  {
    var head := "data:" + mimeType + ";base64";
    assert ',' !in head by {
      var pre := "data:" + mimeType;
      assert ',' !in pre by {
        forall i | 0 <= i < |pre| ensures pre[i] != ',' {
          if i >= 5 { assert pre[i] == mimeType[i - 5]; }
        }
      }
      assert head == pre + ";base64";
      forall i | 0 <= i < |head| ensures head[i] != ',' {
        if i < |pre| { assert head[i] == pre[i]; }
      }
    }
    assert "data:" + mimeType + ";base64," + b64 == head + [','] + b64;
    SplitAtFirst(head, ',', b64);
    SplitNoSeparator(b64, ',');
  }

  // ---------------------------------------------------------------- analysis

  /** The fields of the body the detect-crowd function answers with, as
      the card reads them. */
  datatype CrowdResult = CrowdResult(crowdLevel: string, estimatedCount: int, percentageFull: int,
                                     description: string, recommendation: string)

  /** A resolved `functions.invoke`: an invocation error, or the body with
      its optional `error` field. */
  datatype InvokeOutcome = InvokeError(message: string) | InvokeData(error: Option<string>, body: CrowdResult)

  datatype Toast = AnalysisComplete(level: string) | AnalysisFailed(description: string)

  datatype Analyzer = Analyzer(isAnalyzing: bool, result: Option<CrowdResult>, toast: Option<Toast>)

  /** Entering `analyzeImage`: the spinner shows and the previous result goes. */
  function BeginAnalysis(a: Analyzer): (r: Analyzer)
    ensures r.isAnalyzing && r.result.None? && r.toast == a.toast
  {
    a.(isAnalyzing := true, result := None)
  }

  /** Leaving `analyzeImage`: a result only when the call succeeded and the
      body carries no (non-empty) error; the spinner always goes. */
  function FinishAnalysis(a: Analyzer, outcome: InvokeOutcome): (r: Analyzer)
    ensures !r.isAnalyzing
    ensures outcome.InvokeData? && !(outcome.error.Some? && outcome.error.value != "") ==>
              r.result == Some(outcome.body) && r.toast == Some(AnalysisComplete(outcome.body.crowdLevel))
    ensures outcome.InvokeError? || (outcome.error.Some? && outcome.error.value != "") ==>
              r.result == a.result && r.toast.Some? && r.toast.value.AnalysisFailed?
  {
    match outcome
    case InvokeError(m) => Analyzer(false, a.result, Some(AnalysisFailed(m)))
    case InvokeData(err, body) =>
      if err.Some? && err.value != "" then Analyzer(false, a.result, Some(AnalysisFailed(err.value)))
      else Analyzer(false, Some(body), Some(AnalysisComplete(body.crowdLevel)))
  }

  /** One analysis, start to end. A failure leaves no result behind,
      since the old one was cleared on entry. */
  function AnalyzeImage(a: Analyzer, outcome: InvokeOutcome): (r: Analyzer)
    ensures !r.isAnalyzing
    ensures r.result.Some? <==> outcome.InvokeData? && !(outcome.error.Some? && outcome.error.value != "")
  {
    FinishAnalysis(BeginAnalysis(a), outcome)
  }

  lemma FailedAnalysisClearsResult(a: Analyzer, outcome: InvokeOutcome)
    requires outcome.InvokeError? || (outcome.error.Some? && outcome.error.value != "")
    ensures AnalyzeImage(a, outcome).result.None?
    ensures !AnalyzeImage(a, outcome).isAnalyzing
  {
  }

  // ---------------------------------------------------------------- display

  /** The four levels the model is asked for. */
  predicate KnownLevel(level: string) {
    level in {"low", "medium", "high", "very_high"}
  }

  /** `getCrowdColor`. */
  function CrowdColor(level: string): (c: string)
    ensures !KnownLevel(level) <==> c == "text-muted-foreground bg-muted"
  {
    if level == "low" then "text-green-500 bg-green-500/10"
    else if level == "medium" then "text-yellow-500 bg-yellow-500/10"
    else if level == "high" then "text-orange-500 bg-orange-500/10"
    else if level == "very_high" then "text-red-500 bg-red-500/10"
    else "text-muted-foreground bg-muted"
  }

  /** `getCrowdLabel`. */
  function CrowdLabel(level: string): (l: string)
    ensures !KnownLevel(level) <==> l == "Unknown"
  {
    if level == "low" then "Low - Plenty of seats"
    else if level == "medium" then "Medium - Some seats available"
    else if level == "high" then "High - Standing room only"
    else if level == "very_high" then "Very High - Very crowded"
    else "Unknown"
  }

  /** The four known levels have four different labels and four different colours. */
  lemma KnownLevelsDistinguished(a: string, b: string)
    requires KnownLevel(a) && KnownLevel(b) && a != b
    ensures CrowdLabel(a) != CrowdLabel(b)
    ensures CrowdColor(a) != CrowdColor(b)
  {
  }

  /** `s.replace("_", " ")` with a string pattern: only the first `_` is replaced. */
  function ReplaceFirst(s: string, from: char, to: char): (r: string)
    ensures |r| == |s|
    ensures from !in s ==> r == s
    ensures forall i :: 0 <= i < |s| && s[i] != from ==> r[i] == s[i]
    decreases |s|
  {
    if s == [] then []
    else if s[0] == from then [to] + s[1..]
    else [s[0]] + ReplaceFirst(s[1..], from, to)
  }

  /** The first occurrence is replaced and every later one kept. */
  lemma {:induction false} ReplaceFirstOnlyFirst(a: string, from: char, to: char, b: string)
    requires from !in a
    ensures ReplaceFirst(a + [from] + b, from, to) == a + [to] + b
    decreases |a|
  {
    if a != [] {
      ReplaceFirstOnlyFirst(a[1..], from, to, b);
      assert (a + [from] + b)[1..] == a[1..] + [from] + b;
      assert a == [a[0]] + a[1..];
    }
  }

  /** How a level is shown. */
  function DisplayLevel(level: string): (d: string)
    ensures |d| == |level|
  {
    ReplaceFirst(level, '_', ' ')
  }

  /** The one level with an underscore is shown with a space. */
  lemma VeryHighShownWithSpace()
    ensures DisplayLevel("very_high") == "very high"
  {
    var a, b := "very", "high";
    ReplaceFirstOnlyFirst(a, '_', ' ', b);
    assert a + ['_'] + b == "very_high";
    assert a + [' '] + b == "very high";
  }

  /** The other three levels, and the parser-failure level "unknown", are shown as they are. */
  lemma OtherLevelsShownAsIs()
    ensures forall level | level in {"low", "medium", "high", "unknown"} :: DisplayLevel(level) == level
  {
  }
}

=== FILE: detect_crowd.dfy ===
/** The detect-crowd edge function: from the request, the configured API
    key and the AI gateway's answer to an HTTP status, headers and body.
    JSON parsing is an oracle: `parse` either yields some JSON value of type
    `J` or fails. The gateway's answer is a parameter; the result records
    the image URL the gateway was sent, if it was called at all. */
module DetectCrowd {
  import opened Wrappers
  import opened Text
  import CrowdDetector

  type Header = (string, string)

  const CorsHeaders: seq<Header> := [
    ("Access-Control-Allow-Origin", "*"),
    ("Access-Control-Allow-Headers", "authorization, x-client-info, apikey, content-type")
  ]

  const JsonHeaders: seq<Header> := CorsHeaders + [("Content-Type", "application/json")]

  /** The body of a request after `req.json()`: a parse failure (with its
      message), or an object whose `imageBase64` may be absent. */
  datatype RequestBody = Unreadable(message: string) | Body(imageBase64: Option<string>)

  datatype Request = Request(verb: string, body: RequestBody)

  /** What the gateway call came to. A rejected `fetch` or an unreadable
      JSON body carries the thrown error's message when it is an `Error`;
      otherwise `content` is `choices[0].message.content`, if present. */
  datatype Upstream =
    | Rejected(reason: Option<string>)
    | Answered(status: int, content: Option<string>)
    | UnreadableAnswer(reason: Option<string>)

  /** The fallback object built when the AI's content is not JSON. */
  datatype Fallback = Fallback(crowdLevel: string, estimatedCount: int, percentageFull: int,
                               description: string, recommendation: string)

  datatype ResponseBody<J> = NullBody | ErrorBody(error: string) | ParsedBody(value: J) | FallbackBody(fallback: Fallback)

  datatype Response<J> = Response(status: int, headers: seq<Header>, body: ResponseBody<J>)

  /** The response, and the image URL sent to the gateway if it was called. */
  datatype Outcome<J> = Outcome(response: Response<J>, gatewayImage: Option<string>)

  const NoImage := "No image provided"
  const KeyMissing := "LOVABLE_API_KEY is not configured"
  const RateLimited := "Rate limit exceeded. Please try again later."
  const CreditsExhausted := "AI credits exhausted. Please add credits to continue."
  const AnalysisFailed := "Failed to analyze image"
  const NoAiResponse := "No response from AI"

  predicate Ok(status: int) {
    200 <= status <= 299
  }

  /** The catch block: status 500 with the error's message, or "Unknown
      error" for a thrown value that is not an `Error`. */
  function ServerError<J>(reason: Option<string>): (r: Response<J>)
    ensures r.status == 500 && r.headers == JsonHeaders && r.body.ErrorBody?
  {
    Response(500, JsonHeaders, ErrorBody(reason.GetOr("Unknown error")))
  }

  function JsonResponse<J>(status: int, body: ResponseBody<J>): Response<J> {
    Response(status, JsonHeaders, body)
  }

  /** The handler. */
  function Handle<J>(req: Request, apiKey: Option<string>, upstream: Upstream, parse: string -> Option<J>): (o: Outcome<J>)
    ensures req.verb == "OPTIONS" ==> o == Outcome(Response(200, CorsHeaders, NullBody), None)
    ensures req.verb != "OPTIONS" ==> o.response.headers == JsonHeaders && o.response.body != NullBody
    ensures o.gatewayImage.Some? <==>
              req.verb != "OPTIONS" && req.body.Body? && req.body.imageBase64.Some?
              && req.body.imageBase64.value != "" && apiKey.Some? && apiKey.value != ""
    ensures o.gatewayImage.Some? ==> o.gatewayImage.value == "data:image/jpeg;base64," + req.body.imageBase64.value
  {
    if req.verb == "OPTIONS" then Outcome(Response(200, CorsHeaders, NullBody), None)
    else match req.body
      case Unreadable(m) => Outcome(ServerError(Some(m)), None)
      case Body(image) =>
        if image.None? || image.value == "" then Outcome(JsonResponse(400, ErrorBody(NoImage)), None)
        else if apiKey.None? || apiKey.value == "" then Outcome(ServerError(Some(KeyMissing)), None)
        else Outcome(AfterGateway(upstream, parse), Some("data:image/jpeg;base64," + image.value))
  }

  /** Everything after the gateway call. */
  function AfterGateway<J>(upstream: Upstream, parse: string -> Option<J>): (r: Response<J>)
    ensures r.headers == JsonHeaders
    ensures r.status in {200, 402, 429, 500}
    ensures r.status == 200 <==> upstream.Answered? && Ok(upstream.status) && upstream.content.Some? && upstream.content.value != ""
  {
    match upstream
    case Rejected(reason) => ServerError(reason)
    case UnreadableAnswer(reason) => ServerError(reason)
    case Answered(status, content) =>
      if !Ok(status) then
        if status == 429 then JsonResponse(429, ErrorBody(RateLimited))
        else if status == 402 then JsonResponse(402, ErrorBody(CreditsExhausted))
        else ServerError(Some(AnalysisFailed))
      else if content.None? || content.value == "" then ServerError(Some(NoAiResponse))
      else match parse(content.value)
        case Some(j) => JsonResponse(200, ParsedBody(j))
        case None =>
          JsonResponse(200, FallbackBody(Fallback("unknown", 0, 0, content.value, "Unable to analyze crowd level")))
  }

  /** The status for a non-ok gateway answer: 429 and 402 pass through,
      anything else becomes 500. */
  lemma GatewayErrorStatus<J>(status: int, content: Option<string>, parse: string -> Option<J>)
    requires !Ok(status)
    ensures var r := AfterGateway(Answered(status, content), parse);
            (status == 429 ==> r.status == 429 && r.body == ErrorBody(RateLimited))
            && (status == 402 ==> r.status == 402 && r.body == ErrorBody(CreditsExhausted))
            && (status != 429 && status != 402 ==> r.status == 500 && r.body == ErrorBody(AnalysisFailed))
  {
  }

  /** Content the oracle cannot parse still gives 200, with level
      "unknown", zero counts and the raw content as the description. */
  lemma UnparseableContentFallsBack<J>(status: int, content: string, parse: string -> Option<J>)
    requires Ok(status) && content != "" && parse(content).None?
    ensures AfterGateway(Answered(status, Some(content)), parse)
            == JsonResponse(200, FallbackBody(Fallback("unknown", 0, 0, content, "Unable to analyze crowd level")))
  {
  }

  /** A missing or empty image is a 400 before the key is even looked at. */
  lemma MissingImageIs400<J>(verb: string, image: Option<string>, apiKey: Option<string>,
                             upstream: Upstream, parse: string -> Option<J>)
    requires verb != "OPTIONS" && (image.None? || image.value == "")
    ensures Handle(Request(verb, Body(image)), apiKey, upstream, parse)
            == Outcome(JsonResponse(400, ErrorBody(NoImage)), None)
  {
  }

  /** Without a key, any request carrying an image is a 500 and the gateway is not called. */
  lemma MissingKeyIs500<J>(verb: string, image: string, apiKey: Option<string>,
                           upstream: Upstream, parse: string -> Option<J>)
    requires verb != "OPTIONS" && image != "" && (apiKey.None? || apiKey.value == "")
    ensures var o := Handle(Request(verb, Body(Some(image))), apiKey, upstream, parse);
            o.response.status == 500 && o.response.body == ErrorBody(KeyMissing) && o.gatewayImage.None?
  {
  }

  // ---------------------------------------------------------------- with the card

  /** The body the card sends for a chosen image: `imageBase64` is the
      data URL's payload, dropped by `JSON.stringify` when undefined. */
  function CardRequest(dataUrl: string): Request {
    Request("POST", Body(CrowdDetector.Payload(dataUrl)))
  }

  /** End to end: the base64 data the card reads from a file reaches the
      gateway inside the same kind of data URL, unchanged. */
  lemma CardImageReachesGateway<J>(mimeType: string, b64: string, key: string,
                                   upstream: Upstream, parse: string -> Option<J>)
    requires ',' !in mimeType && ',' !in b64 && b64 != "" && key != ""
    ensures Handle(CardRequest("data:" + mimeType + ";base64," + b64), Some(key), upstream, parse).gatewayImage
            == Some("data:image/jpeg;base64," + b64)
  {
    CrowdDetector.PayloadOfDataUrl(mimeType, b64);
  }

  /** A data URL without a comma sends no image, so the function answers 400. */
  lemma CommaFreeDataUrlIs400<J>(dataUrl: string, apiKey: Option<string>, upstream: Upstream, parse: string -> Option<J>)
    requires ',' !in dataUrl
    ensures Handle(CardRequest(dataUrl), apiKey, upstream, parse).response.status == 400
  {
  }

  /** The fallback body shows on the card as level "unknown" with the "Unknown" label. */
  lemma FallbackShownAsUnknown(content: string)
    ensures var f := Fallback("unknown", 0, 0, content, "Unable to analyze crowd level");
            CrowdDetector.CrowdLabel(f.crowdLevel) == "Unknown"
            && CrowdDetector.CrowdColor(f.crowdLevel) == "text-muted-foreground bg-muted"
  {
  }
}

=== FILE: google_map.dfy ===
/** The Google map component: the same stop progression with 100 steps of
    50 ms per leg, behind an API-key form. While `apiKey` is empty the
    component renders only the key form, whose "Load Map" button calls
    `initializeMap(apiKey)`; once a key is typed the form is replaced by the
    map view, which has no load button. */
module GoogleMap {
  import opened Wrappers
  import opened StopProgression

  const NumSteps: nat := 100

  /** `apiKey`, whether the map and the bus marker exist, `isMapLoaded`,
      and the stop progression. */
  datatype Page = Page(apiKey: string, hasMap: bool, hasMarker: bool, mapLoaded: bool, progress: Progress)

  /** The page before anything happens: no key, no map, no marker, and
      (unlike the Leaflet component) no seat count reported on load. */
  function InitialPage(start: Point): (g: Page)
    ensures g.apiKey == "" && !g.hasMap && !g.hasMarker && !g.mapLoaded
    ensures g.progress.index == 0 && !g.progress.animating && g.progress.inFlight == []
    ensures g.progress.seats.None?
  {
    Page("", false, false, false, Unreported(start))
  }

  /** Which of the two renderings is on screen. The map container that
      `mapRef` points at exists only in the map view. */
  datatype View = KeyForm | MapView

  function ViewOf(g: Page): (v: View)
    ensures v == KeyForm <==> g.apiKey == ""
  {
    if g.apiKey == "" then KeyForm else MapView
  }

  /** `initializeMap(key)`: nothing without the map container or with an
      empty key; otherwise the loader's outcome decides (a failure is only
      logged). A load builds the map and the bus marker and sets `isMapLoaded`. */
  function InitializeMap(g: Page, key: string, containerMounted: bool, loadOk: bool): (r: Page)
    ensures !containerMounted || key == "" ==> r == g
    ensures containerMounted && key != "" && loadOk ==> r.hasMap && r.hasMarker && r.mapLoaded
    ensures containerMounted && key != "" && !loadOk ==> r == g
  {
    if !containerMounted || key == "" then g
    else if loadOk then g.(hasMap := true, hasMarker := true, mapLoaded := true)
    else g
  }

  /** The route path: start, the stops in order, end. */
  function RoutePath(start: Point, stops: seq<Stop>, end: Point): (r: seq<Point>)
    ensures |r| == |stops| + 2 && r[0] == start && r[|r| - 1] == end
    ensures forall i :: 0 <= i < |stops| ==> r[i + 1] == StopPoint(stops[i])
  {
    RouteCoords(start, stops, end)
  }

  /** `animateBus`: needs the marker and the map. */
  function MoveBus(g: Page, stops: seq<Stop>): (r: Page)
    ensures !(g.hasMarker && g.hasMap) ==> r == g
    ensures r.progress == Animate(g.progress, stops, g.hasMarker && g.hasMap)
  {
    g.(progress := Animate(g.progress, stops, g.hasMarker && g.hasMap))
  }

  /** `resetAnimation`: needs the marker. The marker goes back to the
      start and the initial seats are reported, but the leg timer still
      running is not cleared. */
  function ResetBus(g: Page, start: Point, stops: seq<Stop>): (r: Page)
    ensures !g.hasMarker ==> r == g
    ensures g.hasMarker ==> r.progress.index == 0 && !r.progress.animating && r.progress.position == start
                            && r.progress.seats == Some(InitialSeats(stops))
                            && r.progress.inFlight == g.progress.inFlight
  {
    g.(progress := Reset(g.progress, start, stops, g.hasMarker))
  }

  /** The evidently intended reset: the running leg timer is cleared as well. */
  function ResetBusCancelling(g: Page, start: Point, stops: seq<Stop>): (r: Page)
    ensures !g.hasMarker ==> r == g
    ensures g.hasMarker ==> r.progress.index == 0 && !r.progress.animating && r.progress.position == start
                            && r.progress.seats == Some(InitialSeats(stops)) && r.progress.inFlight == []
    ensures g.hasMarker ==> r.progress == ResetBus(g, start, stops).progress.(inFlight := [])
  {
    g.(progress := ResetCancelling(g.progress, start, stops, g.hasMarker))
  }

  /** The "Current Stop" line, shown only once the map is loaded. */
  function StopLine(g: Page, stops: seq<Stop>): (s: Option<string>)
    ensures s.Some? <==> g.mapLoaded
    ensures s.Some? ==> s.value == Label(g.progress, stops)
  {
    if g.mapLoaded then Some(Label(g.progress, stops)) else None
  }

  /** Each tick covers a hundredth of the leg. */
  lemma LegIsEven(f: Flight, stops: seq<Stop>, step: nat)
    requires f.target < |stops| && step < NumSteps
    ensures var to := StopPoint(stops[f.target]);
            LegPosition(f, stops, step + 1, NumSteps).lat - LegPosition(f, stops, step, NumSteps).lat == (to.lat - f.from.lat) / 100.0
            && LegPosition(f, stops, step + 1, NumSteps).lng - LegPosition(f, stops, step, NumSteps).lng == (to.lng - f.from.lng) / 100.0
  {
    var to := StopPoint(stops[f.target]);
    LerpBetween(f.from.lat, to.lat, step, NumSteps);
    LerpBetween(f.from.lng, to.lng, step, NumSteps);
  }

  // ---------------------------------------------------------------- the key form

  /** What the user can do on the page: type into the key field, press
      "Load Map" (with the loader's outcome), press Move, press Reset. */
  datatype UiEvent = TypeKey(key: string) | PressLoad(loadOk: bool) | PressMove | PressReset

  /** One event on the page as written: the key field and the load button
      exist only in the key form, Move and Reset only in the map view. */
  function UiStep(g: Page, start: Point, stops: seq<Stop>, e: UiEvent): Page {
    match e
    case TypeKey(k) => if ViewOf(g) == KeyForm then g.(apiKey := k) else g
    case PressLoad(ok) => if ViewOf(g) == KeyForm then InitializeMap(g, g.apiKey, false, ok) else g
    case PressMove => if ViewOf(g) == MapView then MoveBus(g, stops) else g
    case PressReset => if ViewOf(g) == MapView then ResetBus(g, start, stops) else g
  }

  function UiRun(g: Page, start: Point, stops: seq<Stop>, events: seq<UiEvent>): Page
    decreases |events|
  {
    if events == [] then g else UiRun(UiStep(g, start, stops, events[0]), start, stops, events[1..])
  }

  /** As written the map can never load: "Load Map" is only on screen while
      the key is empty, and `initializeMap` ignores an empty key (the map
      container is not mounted then either). So the bus never moves. */
  lemma {:induction false} MapNeverLoads(start: Point, stops: seq<Stop>, events: seq<UiEvent>)
    ensures var g := UiRun(InitialPage(start), start, stops, events);
            !g.mapLoaded && !g.hasMarker && g.progress == Unreported(start) && g.progress.seats.None?
  {
    NeverLoadsFrom(InitialPage(start), start, stops, events);
  }

  lemma {:induction false} NeverLoadsFrom(g: Page, start: Point, stops: seq<Stop>, events: seq<UiEvent>)
    requires !g.mapLoaded && !g.hasMarker && !g.hasMap
    ensures var r := UiRun(g, start, stops, events);
            !r.mapLoaded && !r.hasMarker && !r.hasMap && r.progress == g.progress
    decreases |events|
  {
    if events != [] {
      var g1 := UiStep(g, start, stops, events[0]);
      assert !g1.mapLoaded && !g1.hasMarker && !g1.hasMap && g1.progress == g.progress;
      NeverLoadsFrom(g1, start, stops, events[1..]);
    }
  }

  /** The evidently intended page: the key form (with the map container
      mounted) stays until the map has loaded, and "Load Map" passes the
      typed key. */
  function FixedViewOf(g: Page): (v: View)
    ensures v == KeyForm <==> !g.mapLoaded
  {
    if g.mapLoaded then MapView else KeyForm
  }

  function FixedUiStep(g: Page, start: Point, stops: seq<Stop>, e: UiEvent): (r: Page)
    ensures e.PressLoad? && FixedViewOf(g) == KeyForm && g.apiKey != "" && e.loadOk ==> r.mapLoaded && r.hasMarker
  {
    match e
    case TypeKey(k) => if FixedViewOf(g) == KeyForm then g.(apiKey := k) else g
    case PressLoad(ok) => if FixedViewOf(g) == KeyForm then InitializeMap(g, g.apiKey, true, ok) else g
    case PressMove => if FixedViewOf(g) == MapView then MoveBus(g, stops) else g
    case PressReset => if FixedViewOf(g) == MapView then ResetBusCancelling(g, start, stops) else g
  }

  /** With the fix, typing a key and loading successfully shows the map
      (still with no seat count reported), and the first Move then sets off towards the first stop. */
  lemma FixedPageLoadsAndMoves(start: Point, stops: seq<Stop>, key: string)
    requires key != "" && |stops| > 0
    ensures var g1 := FixedUiStep(InitialPage(start), start, stops, TypeKey(key));
            var g2 := FixedUiStep(g1, start, stops, PressLoad(true));
            var g3 := FixedUiStep(g2, start, stops, PressMove);
            g2.mapLoaded && FixedViewOf(g2) == MapView && StopLine(g2, stops) == Some(stops[0].name)
            && g2.progress.seats.None?
            && g3.progress.animating && g3.progress.inFlight == [Flight(0, start)]
  {
  }
}

=== FILE: leaflet_map.dfy ===
/** The Leaflet map component: the stop progression with 60 steps of
    100 ms per leg. Moving needs the map, the bus marker and its glow
    circle; resetting needs the marker and the glow circle. */
module LeafletMap {
  import opened Wrappers
  import opened StopProgression

  const NumSteps: nat := 60

  /** The map objects the component holds in refs once the map is built. */
  datatype MapRefs = MapRefs(mapObj: bool, marker: bool, glow: bool)

  /** Mounting builds all three objects and reports the initial seats. */
  function Mount(start: Point, stops: seq<Stop>): (r: (MapRefs, Progress))
    ensures r.0 == MapRefs(true, true, true)
    ensures r.1 == Initial(start, stops) && r.1.seats == Some(InitialSeats(stops))
  {
    (MapRefs(true, true, true), Initial(start, stops))
  }

  /** `animateBus`. */
  function MoveBus(p: Progress, stops: seq<Stop>, refs: MapRefs): (r: Progress)
    ensures !(refs.mapObj && refs.marker && refs.glow) ==> r == p
    ensures p.animating || p.index >= |stops| ==> r == p
    ensures refs.mapObj && refs.marker && refs.glow && MoveEnabled(p, stops) ==>
              r.animating && r.index == p.index && r.inFlight == p.inFlight + [Flight(p.index, p.position)]
  {
    Animate(p, stops, refs.mapObj && refs.marker && refs.glow)
  }

  /** `resetAnimation`: needs the marker and the glow circle. The marker
      goes back to the start and the initial seats are reported, but the
      leg timer still running is not cleared. */
  function ResetBus(p: Progress, start: Point, stops: seq<Stop>, refs: MapRefs): (r: Progress)
    ensures !(refs.marker && refs.glow) ==> r == p
    ensures refs.marker && refs.glow ==>
              r.index == 0 && !r.animating && r.seats == Some(InitialSeats(stops)) && r.position == start
              && r.inFlight == p.inFlight
  {
    Reset(p, start, stops, refs.marker && refs.glow)
  }

  /** The evidently intended reset: the running leg timer is cleared as well. */
  function ResetBusCancelling(p: Progress, start: Point, stops: seq<Stop>, refs: MapRefs): (r: Progress)
    ensures !(refs.marker && refs.glow) ==> r == p
    ensures refs.marker && refs.glow ==>
              r.index == 0 && !r.animating && r.seats == Some(InitialSeats(stops)) && r.position == start
              && r.inFlight == []
    ensures refs.marker && refs.glow ==> r == ResetBus(p, start, stops, refs).(inFlight := [])
  {
    ResetCancelling(p, start, stops, refs.marker && refs.glow)
  }

  /** Each tick moves the marker by a sixtieth of the leg, and on both
      axes the marker never leaves the range spanned by the two ends. */
  lemma LegIsEvenAndBounded(f: Flight, stops: seq<Stop>, step: nat)
    requires f.target < |stops| && step <= NumSteps
    ensures var to := StopPoint(stops[f.target]);
            step < NumSteps ==>
              LegPosition(f, stops, step + 1, NumSteps).lat - LegPosition(f, stops, step, NumSteps).lat == (to.lat - f.from.lat) / 60.0
              && LegPosition(f, stops, step + 1, NumSteps).lng - LegPosition(f, stops, step, NumSteps).lng == (to.lng - f.from.lng) / 60.0
    ensures var to := StopPoint(stops[f.target]);
            var q := LegPosition(f, stops, step, NumSteps);
            && (f.from.lat <= to.lat ==> f.from.lat <= q.lat <= to.lat)
            && (to.lat <= f.from.lat ==> to.lat <= q.lat <= f.from.lat)
            && (f.from.lng <= to.lng ==> f.from.lng <= q.lng <= to.lng)
            && (to.lng <= f.from.lng ==> to.lng <= q.lng <= f.from.lng)
  {
    var to := StopPoint(stops[f.target]);
    LerpBetween(f.from.lat, to.lat, step, NumSteps);
    LerpBetween(f.from.lng, to.lng, step, NumSteps);
  }

  /** Right after mounting, pressing Move then letting the leg finish
      arrives at the first stop and reports its seats. */
  lemma FirstLegReachesFirstStop(start: Point, stops: seq<Stop>)
    requires |stops| > 0
    ensures var (refs, p0) := Mount(start, stops);
            var p1 := MoveBus(p0, stops, refs);
            var p2 := Complete(p1, stops, 0);
            p2.index == 1 && p2.position == StopPoint(stops[0]) && p2.seats == Some(stops[0].seatsLeft)
            && Label(p2, stops) == (if |stops| > 1 then stops[1].name else "Destination Reached")
  {
  }
}

=== FILE: live_tracking.dfy ===
/** The LiveTracking page: the simulator Start / Stop controls, their
    enablement, and the panels it shows for the bus list. The page's
    `isAuthenticated` comes from the mock auth context, while the
    simulator asks the backend for its user: the two are separate inputs. */
module LiveTracking {
  import opened Wrappers
  import BusSimulator
  import BusTracking

  /** The page's own state plus the simulator singleton slot it reaches through `getSimulator()`. */
  datatype PageState = PageState(simulatorRunning: bool, registry: BusSimulator.Registry)

  /** The toast a handler raises. */
  datatype Toast = AuthenticationRequired | SimulatorStarted | SimulatorStopped

  const InitialPage := PageState(false, BusSimulator.Registry(None))

  /** The simulator `getSimulator()` would hand back on this page. */
  function CurrentSimulator(p: PageState): BusSimulator.Simulator {
    BusSimulator.GetSimulator(p.registry).1
  }

  /** `handleStartSimulator`: unauthenticated, it only raises a toast;
      otherwise it awaits `start()` and then sets `simulatorRunning`,
      whether or not `start()` armed its timer. */
  function HandleStart(p: PageState, isAuthenticated: bool, backendUser: Option<string>,
                       upsertOk: bool, round: seq<BusSimulator.Draws>): (r: (PageState, Toast))
    requires BusSimulator.ValidRound(round, |CurrentSimulator(p).roster|)
    ensures !isAuthenticated ==> r == (p, AuthenticationRequired)
    ensures isAuthenticated ==> r.0.simulatorRunning && r.1 == SimulatorStarted
    ensures isAuthenticated ==>
              r.0.registry.instance == Some(BusSimulator.Start(CurrentSimulator(p), backendUser, upsertOk, round).sim)
  {
    if !isAuthenticated then (p, AuthenticationRequired)
    else
      var (reg, sim) := BusSimulator.GetSimulator(p.registry);
      var started := BusSimulator.Start(sim, backendUser, upsertOk, round);
      (PageState(true, BusSimulator.Registry(Some(started.sim))), SimulatorStarted)
  }

  /** `handleStopSimulator`: stop the singleton and clear the flag. */
  function HandleStop(p: PageState): (r: (PageState, Toast))
    ensures !r.0.simulatorRunning && r.1 == SimulatorStopped
    ensures r.0.registry.instance == Some(BusSimulator.Stop(CurrentSimulator(p)))
    ensures !CurrentSimulator(r.0).timerArmed
  {
    var (reg, sim) := BusSimulator.GetSimulator(p.registry);
    (PageState(false, BusSimulator.Registry(Some(BusSimulator.Stop(sim)))), SimulatorStopped)
  }

  /** The Start button's `disabled={simulatorRunning || !isAuthenticated}`, negated. */
  predicate StartEnabled(p: PageState, isAuthenticated: bool) {
    !p.simulatorRunning && isAuthenticated
  }

  /** The Stop button's `disabled={!simulatorRunning}`, negated. */
  predicate StopEnabled(p: PageState) {
    p.simulatorRunning
  }

  /** Start and Stop are never enabled together, and once started the page
      only offers Stop, until Stop is pressed. */
  lemma ButtonsAlternate(p: PageState, isAuthenticated: bool, backendUser: Option<string>,
                         upsertOk: bool, round: seq<BusSimulator.Draws>)
    requires BusSimulator.ValidRound(round, |CurrentSimulator(p).roster|)
    ensures !(StartEnabled(p, isAuthenticated) && StopEnabled(p))
    ensures isAuthenticated ==>
              var p1 := HandleStart(p, isAuthenticated, backendUser, upsertOk, round).0;
              StopEnabled(p1) && !StartEnabled(p1, isAuthenticated)
    ensures StartEnabled(HandleStop(p).0, isAuthenticated) <==> isAuthenticated
  {
  }

  /** The page shows "running" even when `start()` gave up because the
      backend had no user: nothing is ticking. */
  lemma RunningFlagCanDisagree(round: seq<BusSimulator.Draws>)
    requires BusSimulator.ValidRound(round, 6)
    ensures var p := HandleStart(InitialPage, true, None, true, round).0;
            p.simulatorRunning && !CurrentSimulator(p).Ticking()
  {
  }

  /** An unauthenticated Start never touches the simulator. */
  lemma UnauthenticatedStartLeavesSimulator(p: PageState, backendUser: Option<string>, upsertOk: bool,
                                            round: seq<BusSimulator.Draws>)
    requires BusSimulator.ValidRound(round, |CurrentSimulator(p).roster|)
    ensures HandleStart(p, false, backendUser, upsertOk, round).0.registry == p.registry
    ensures p == InitialPage ==> !HandleStart(p, false, backendUser, upsertOk, round).0.simulatorRunning
  {
  }

  /** `formatTimestamp`: `'N/A'` for a null or empty timestamp, otherwise
      the locale rendering (a parameter) of its value. */
  function FormatTimestamp(ts: Option<string>, localeTime: string -> string): (r: string)
    ensures (ts.None? || ts.value == "") ==> r == "N/A"
    ensures ts.Some? && ts.value != "" ==> r == localeTime(ts.value)
  {
    if ts.None? || ts.value == "" then "N/A" else localeTime(ts.value)
  }

  /** Which of the three list panels render: the spinner while loading,
      the error card for a non-empty error, the grid when neither. */
  datatype Panels = Panels(spinner: bool, errorCard: bool, grid: bool)

  function ListPanels(s: BusTracking.TrackingState): (v: Panels)
    ensures v.grid <==> !v.spinner && !v.errorCard
  {
    var errorShown := s.error.Some? && s.error.value != "";
    Panels(s.isLoading, errorShown, !s.isLoading && !errorShown)
  }

  /** After the bootstrap read the spinner is gone; a failed read with a
      message shows the error card and no grid, a good read shows the grid. */
  lemma PanelsAfterBootstrap(outcome: BusTracking.FetchOutcome)
    ensures !ListPanels(BusTracking.Bootstrap(outcome)).spinner
    ensures outcome.Fetched? ==> ListPanels(BusTracking.Bootstrap(outcome)).grid
    ensures outcome.FetchFailed? && outcome.message != "" ==>
              ListPanels(BusTracking.Bootstrap(outcome)) == Panels(false, true, false)
  {
  }
}

=== FILE: password_strength.dfy ===
/** The PasswordStrengthMeter: a score out of six, one point per criterion
    (length at least 8, length at least 12, a lower-case letter, an
    upper-case letter, a digit, any other character), a three-step label,
    and a bar width in percent. The regular expressions are ASCII-only. */
module PasswordStrength {
  import opened Wrappers
  import opened Text

  datatype Label = Weak | Medium | Strong

  /** What `calculateStrength` returns; `rating` is its `label`. */
  datatype Strength = Strength(score: nat, rating: Label, color: string)

  /** `/[a-z]/.test(pw)` */
  predicate HasLower(pw: string) {
    exists i :: 0 <= i < |pw| && IsAsciiLower(pw[i])
  }

  /** `/[A-Z]/.test(pw)` */
  predicate HasUpper(pw: string) {
    exists i :: 0 <= i < |pw| && IsAsciiUpper(pw[i])
  }

  /** `/[0-9]/.test(pw)` */
  predicate HasDigit(pw: string) {
    exists i :: 0 <= i < |pw| && IsAsciiDigit(pw[i])
  }

  predicate IsSymbol(c: char) {
    !IsAsciiLower(c) && !IsAsciiUpper(c) && !IsAsciiDigit(c)
  }

  /** `/[^A-Za-z0-9]/.test(pw)` */
  predicate HasSymbol(pw: string) {
    exists i :: 0 <= i < |pw| && IsSymbol(pw[i])
  }

  /** The six criteria, in scoring order. */
  function Criteria(pw: string): seq<bool> {
    [Utf16Length(pw) >= 8, Utf16Length(pw) >= 12, HasLower(pw), HasUpper(pw), HasDigit(pw), HasSymbol(pw)]
  }

  /** How many of the flags hold. */
  function CountTrue(bs: seq<bool>): (n: nat)
    ensures n <= |bs|
  {
    if |bs| == 0 then 0 else (if bs[0] then 1 else 0) + CountTrue(bs[1..])
  }

  function Point(b: bool): nat {
    if b then 1 else 0
  }

  /** The score, accumulated one `if` at a time as the source does; it is
      the number of satisfied criteria, so at most six. */
  function Score(pw: string): (s: nat)
    ensures s == CountTrue(Criteria(pw))
    ensures s <= 6
  {
    var c := Criteria(pw);
    assert CountTrue(c) == Point(c[0]) + Point(c[1]) + Point(c[2]) + Point(c[3]) + Point(c[4]) + Point(c[5]) by {
      assert CountTrue(c[5..]) == Point(c[5]) by { assert c[5..][1..] == []; }
      assert CountTrue(c[4..]) == Point(c[4]) + CountTrue(c[5..]) by { assert c[4..][1..] == c[5..]; }
      assert CountTrue(c[3..]) == Point(c[3]) + CountTrue(c[4..]) by { assert c[3..][1..] == c[4..]; }
      assert CountTrue(c[2..]) == Point(c[2]) + CountTrue(c[3..]) by { assert c[2..][1..] == c[3..]; }
      assert CountTrue(c[1..]) == Point(c[1]) + CountTrue(c[2..]) by { assert c[1..][1..] == c[2..]; }
    }
    Point(Utf16Length(pw) >= 8) + Point(Utf16Length(pw) >= 12) + Point(HasLower(pw)) + Point(HasUpper(pw))
      + Point(HasDigit(pw)) + Point(HasSymbol(pw))
  }

  /** The thresholds: at most 2 is Weak, at most 4 is Medium, else Strong. */
  function LabelFor(score: nat): (l: Label)
    ensures l == Weak <==> score <= 2
    ensures l == Medium <==> 3 <= score <= 4
    ensures l == Strong <==> score >= 5
  {
    if score <= 2 then Weak else if score <= 4 then Medium else Strong
  }

  function ColorFor(l: Label): string {
    match l
    case Weak => "bg-red-500"
    case Medium => "bg-yellow-500"
    case Strong => "bg-green-500"
  }

  /** `calculateStrength(pw)`. */
  function CalculateStrength(pw: string): (r: Strength)
    ensures r.score == CountTrue(Criteria(pw)) && r.score <= 6
    ensures r.rating == LabelFor(r.score)
  {
    var s := Score(pw);
    var l := LabelFor(s);
    Strength(s, l, ColorFor(l))
  }

  /** The component: nothing rendered for an empty password. */
  function Meter(pw: string): (r: Option<Strength>)
    ensures r.None? <==> pw == ""
    ensures r.Some? ==> r.value == CalculateStrength(pw)
  {
    if pw == "" then None else Some(CalculateStrength(pw))
  }

  /** `(score / 6) * 100`, the bar width. */
  function Percentage(score: nat): (p: real)
    requires score <= 6
    ensures 0.0 <= p <= 100.0
    ensures p == 100.0 <==> score == 6
    ensures p == 0.0 <==> score == 0
  {
    (score as real / 6.0) * 100.0
  }

  /** Every character is in one of the four classes, so a non-empty
      password scores at least one point. */
  lemma NonEmptyScoresAtLeastOne(pw: string)
    requires pw != ""
    ensures Score(pw) >= 1
  {
    var c := pw[0];
    if IsAsciiLower(c) { assert HasLower(pw); }
    else if IsAsciiUpper(c) { assert HasUpper(pw); }
    else if IsAsciiDigit(c) { assert HasDigit(pw); }
    else { assert HasSymbol(pw); }
  }

  /** Twelve UTF-16 code units or more earn both length points. */
  lemma LongScoresAtLeastTwo(pw: string)
    requires Utf16Length(pw) >= 12
    ensures Score(pw) >= 2
  {
  }

  /** Twelve code units plus at least one character class: never Weak. */
  lemma LongPasswordNotWeak(pw: string)
    requires Utf16Length(pw) >= 12
    ensures Score(pw) >= 3 && CalculateStrength(pw).rating != Weak
  {
    NonEmptyScoresAtLeastOne(pw);
    var c := pw[0];
    if IsAsciiLower(c) { assert HasLower(pw); }
    else if IsAsciiUpper(c) { assert HasUpper(pw); }
    else if IsAsciiDigit(c) { assert HasDigit(pw); }
    else { assert HasSymbol(pw); }
  }

  /** Typing one more character never lowers the score. */
  lemma AppendNeverLowersScore(pw: string, c: char)
    ensures Score(pw + [c]) >= Score(pw)
  {
    var q := pw + [c];
    Utf16LengthAppend(pw, [c]);
    if HasLower(pw) { var i :| 0 <= i < |pw| && IsAsciiLower(pw[i]); assert q[i] == pw[i]; }
    if HasUpper(pw) { var i :| 0 <= i < |pw| && IsAsciiUpper(pw[i]); assert q[i] == pw[i]; }
    if HasDigit(pw) { var i :| 0 <= i < |pw| && IsAsciiDigit(pw[i]); assert q[i] == pw[i]; }
    if HasSymbol(pw) { var i :| 0 <= i < |pw| && IsSymbol(pw[i]); assert q[i] == pw[i]; }
  }

  /** A full score needs twelve code units and all four character classes. */
  lemma FullScoreIff(pw: string)
    ensures Score(pw) == 6 <==>
              Utf16Length(pw) >= 12 && HasLower(pw) && HasUpper(pw) && HasDigit(pw) && HasSymbol(pw)
  {
  }

  /** The length criteria count UTF-16 code units: a password without
      characters beyond U+FFFF earns the first point at eight characters,
      while four emoji (eight code units) already earn it. */
  lemma LengthPointCountsCodeUnits(pw: string)
    ensures InBasicPlane(pw) ==> (Criteria(pw)[0] <==> |pw| >= 8)
    ensures pw == "\U{1F68C}\U{1F68C}\U{1F68C}\U{1F68C}" ==> |pw| == 4 && Criteria(pw)[0]
  {
    Utf16LengthIsLengthIff(pw);
    if pw == "\U{1F68C}\U{1F68C}\U{1F68C}\U{1F68C}" {
      assert Utf16Length(pw[3..]) == 2;
      assert Utf16Length(pw[2..]) == 4 by { assert pw[2..][1..] == pw[3..]; }
      assert Utf16Length(pw[1..]) == 6 by { assert pw[1..][1..] == pw[2..]; }
      assert Utf16Length(pw) == 8;
    }
  }
}

=== FILE: profile.dfy ===
/** The Profile page: which section it shows, how an edited field reaches
    the profile table, and the SMS verification dialogs with their
    one-time-password (OTP) countdown and attempt counter. Each async
    handler is one atomic transition: the simulated one-second delay never
    fails, so its `catch` branch is never taken, and `isLoading` is false
    again once the handler ends. */
module Profile {
  import opened Wrappers
  import opened Text

  // ---------------------------------------------------------------- sections

  datatype Section = Personal | Contact | Settings | Support

  function SectionId(s: Section): string {
    match s
    case Personal => "personal"
    case Contact => "contact"
    case Settings => "settings"
    case Support => "support"
  }

  /** The section named by an id, if it is one of the four. */
  function SectionNamed(id: string): (r: Option<Section>)
    ensures r.Some? <==> id in {"personal", "contact", "settings", "support"}
    ensures r.Some? ==> SectionId(r.value) == id
  {
    if id == "personal" then Some(Personal)
    else if id == "contact" then Some(Contact)
    else if id == "settings" then Some(Settings)
    else if id == "support" then Some(Support)
    else None
  }

  /** The effect of the `?section=` parameter on `activeSection`: adopted
      only when present and whitelisted, ignored otherwise. */
  function ApplySectionParam(active: string, param: Option<string>): (r: string)
    ensures param.Some? && SectionNamed(param.value).Some? ==> r == param.value
    ensures (param.None? || SectionNamed(param.value).None?) ==> r == active
  {
    if param.Some? && param.value != "" && SectionNamed(param.value).Some? then param.value else active
  }

  /** `renderContent`: the section an `activeSection` string shows; any
      other value falls back to the personal section. */
  function Rendered(active: string): (s: Section)
    ensures SectionNamed(active).None? ==> s == Personal
    ensures SectionNamed(active).Some? ==> s == SectionNamed(active).value
  {
    match SectionNamed(active)
    case Some(s) => s
    case None => Personal
  }

  /** Ids and sections correspond one to one. */
  lemma SectionIdRoundTrip(s: Section)
    ensures SectionNamed(SectionId(s)) == Some(s)
    ensures Rendered(SectionId(s)) == s
  {
  }

  /** Whatever the parameter, the page shows one of the four sections and a
      parameter outside the whitelist leaves what is shown unchanged. */
  lemma SectionParamOutsideWhitelistIgnored(active: string, param: string)
    requires SectionNamed(param).None?
    ensures Rendered(ApplySectionParam(active, Some(param))) == Rendered(active)
  {
  }

  // ---------------------------------------------------------------- profile fields

  /** The seven inputs of the personal and contact sections. */
  datatype UserField = FirstName | Surname | DateOfBirth | Location | ContactNumber | PhoneNumber | Email

  datatype UserData = UserData(firstName: string, surname: string, dateOfBirth: string, location: string,
                               contactNumber: string, phoneNumber: string, email: string)

  function Get(d: UserData, field: UserField): string {
    match field
    case FirstName => d.firstName
    case Surname => d.surname
    case DateOfBirth => d.dateOfBirth
    case Location => d.location
    case ContactNumber => d.contactNumber
    case PhoneNumber => d.phoneNumber
    case Email => d.email
  }

  /** `{ ...prev, [field]: value }`. */
  function SetField(d: UserData, field: UserField, value: string): (r: UserData)
    ensures Get(r, field) == value
    ensures forall g :: g != field ==> Get(r, g) == Get(d, g)
  {
    match field
    case FirstName => d.(firstName := value)
    case Surname => d.(surname := value)
    case DateOfBirth => d.(dateOfBirth := value)
    case Location => d.(location := value)
    case ContactNumber => d.(contactNumber := value)
    case PhoneNumber => d.(phoneNumber := value)
    case Email => d.(email := value)
  }

  /** The profile column an edited field is written to; the email is never written. */
  function ColumnFor(field: UserField): (c: Option<string>)
    ensures c.None? <==> field == Email
  {
    match field
    case FirstName => Some("first_name")
    case Surname => Some("last_name")
    case DateOfBirth => Some("date_of_birth")
    case Location => Some("location")
    case ContactNumber => Some("phone_number")
    case PhoneNumber => Some("phone_number")
    case Email => None
  }

  /** One column and its new value, the argument of `updateProfile`. */
  datatype ProfilePatch = ProfilePatch(column: string, value: string)

  /** `handleInputChange`: the local copy always takes the value; the
      profile is updated only when the field maps to a column. */
  function HandleInputChange(d: UserData, field: UserField, value: string): (r: (UserData, Option<ProfilePatch>))
    ensures r.0 == SetField(d, field, value)
    ensures r.1.Some? <==> field != Email
    ensures r.1.Some? ==> r.1.value == ProfilePatch(ColumnFor(field).value, value)
  {
    var patch := match ColumnFor(field)
      case Some(c) => Some(ProfilePatch(c, value))
      case None => None;
    (SetField(d, field, value), patch)
  }

  /** Distinct fields write distinct columns, except that the contact
      number and the phone number share `phone_number`. */
  lemma ColumnsDistinct(f: UserField, g: UserField)
    requires f != g && ColumnFor(f).Some? && ColumnFor(g).Some?
    ensures ColumnFor(f) == ColumnFor(g) <==> {f, g} == {ContactNumber, PhoneNumber}
  {
    if {f, g} == {ContactNumber, PhoneNumber} {
      assert f in {ContactNumber, PhoneNumber};
    }
  }

  /** Writing a field and reading it back: the last write wins, and writing
      the value already held changes nothing. */
  lemma SetFieldLaws(d: UserData, field: UserField, v: string, w: string)
    ensures SetField(SetField(d, field, v), field, w) == SetField(d, field, w)
    ensures SetField(d, field, Get(d, field)) == d
  {
  }

  // ---------------------------------------------------------------- countdown

  const OtpSeconds := 60
  const MaxAttempts := 3
  const DemoOtp := "123456"

  /** The interval callback: `prev <= 1` becomes 0, otherwise `prev - 1`. */
  function CountdownTick(prev: int): (r: int)
    ensures r >= 0
    ensures prev >= 1 ==> r == prev - 1
    ensures prev <= 1 ==> r == 0
  {
    if prev <= 1 then 0 else prev - 1
  }

  function Ticks(c: int, n: nat): int
    decreases n
  {
    if n == 0 then c else Ticks(CountdownTick(c), n - 1)
  }

  /** `n` ticks of the callback count down by `n`, clamped at zero. */
  lemma {:induction false} TicksClampAtZero(c: nat, n: nat)
    ensures Ticks(c, n) == if c >= n then c - n else 0
    decreases n
  {
    if n > 0 {
      TicksClampAtZero(CountdownTick(c), n - 1);
    }
  }

  /** `formatTime`'s `padStart(2, '0')`. */
  function PadStart2(s: string): (r: string)
    ensures |r| == if |s| >= 2 then |s| else 2
    ensures r[|r| - |s|..] == s
    ensures forall i :: 0 <= i < |r| - |s| ==> r[i] == '0'
  {
    if |s| >= 2 then s else if |s| == 1 then ['0'] + s else "00"
  }

  /** `formatTime(seconds)`: whole minutes, a colon, and the remaining
      seconds as two digits. The countdown never goes negative, so the
      argument is a natural number. */
  function FormatTime(seconds: nat): (r: string)
    ensures var mins := NatToString(seconds / 60);
            |r| == |mins| + 3 && r[..|mins|] == mins && r[|mins|] == ':'
  {
    PadStart2Value(seconds % 60);
    NatToString(seconds / 60) + ":" + PadStart2(NatToString(seconds % 60))
  }

  /** Reading an `m:ss` string back: the minutes before the colon, the
      seconds after it. */
  function ParseTime(s: string): Option<nat> {
    var parts := Split(s, ':');
    if |parts| == 2 && AllDigits(parts[0]) && AllDigits(parts[1]) && |parts[1]| == 2 && parts[0] != ""
    then Some(60 * DigitsValue(parts[0]) + DigitsValue(parts[1]))
    else None
  }

  lemma PadStart2Value(n: nat)
    requires n < 60
    ensures AllDigits(PadStart2(NatToString(n)))
    ensures |PadStart2(NatToString(n))| == 2
    ensures DigitsValue(PadStart2(NatToString(n))) == n
  {
    NatToStringRoundTrip(n);
    var s := NatToString(n);
    if |s| == 1 {
      var p := ['0'] + s;
      assert p[..1] == "0";
    }
  }

  /** The text splits at its colon into the minutes and the padded seconds. */
  lemma FormatTimeSplits(seconds: nat)
    ensures Split(FormatTime(seconds), ':') == [NatToString(seconds / 60), PadStart2(NatToString(seconds % 60))]
  {
    var mins := NatToString(seconds / 60);
    var secs := PadStart2(NatToString(seconds % 60));
    PadStart2Value(seconds % 60);
    assert ':' !in mins by {
      forall i | 0 <= i < |mins| ensures mins[i] != ':' { assert IsAsciiDigit(mins[i]); }
    }
    assert ':' !in secs by {
      forall i | 0 <= i < |secs| ensures secs[i] != ':' { assert IsAsciiDigit(secs[i]); }
    }
    SplitAtFirst(mins, ':', secs);
    SplitNoSeparator(secs, ':');
    assert FormatTime(seconds) == mins + [':'] + secs;
  }

  /** `formatTime` loses nothing: the seconds can be read back from the text. */
  lemma FormatTimeRoundTrip(seconds: nat)
    ensures ParseTime(FormatTime(seconds)) == Some(seconds)
  {
    var mins := NatToString(seconds / 60);
    var secs := PadStart2(NatToString(seconds % 60));
    FormatTimeSplits(seconds);
    PadStart2Value(seconds % 60);
    NatToStringRoundTrip(seconds / 60);
    var parts := Split(FormatTime(seconds), ':');
    assert parts[0] == mins && parts[1] == secs;
    assert DigitsValue(mins) == seconds / 60 && DigitsValue(secs) == seconds % 60;
    assert 60 * (seconds / 60) + seconds % 60 == seconds;
  }

  /** The two values the source quotes. */
  lemma FormatTimeExamples()
    ensures FormatTime(60) == "1:00"
    ensures FormatTime(5) == "0:05"
  {
    assert NatToString(1) == "1" && NatToString(0) == "0" && NatToString(5) == "5";
    assert PadStart2("0") == "00" && PadStart2("5") == "05";
  }

  // ---------------------------------------------------------------- SMS verification

  datatype OtpState = OtpState(
    smsEnabled: bool,
    showPhoneVerification: bool,
    showOtpInterface: bool,
    verificationPhone: string,
    otp: string,
    countdown: int,
    otpError: string,
    attemptsLeft: int,
    isLoading: bool,
    otpSessionId: string)

  const InitialOtp := OtpState(false, false, false, "", "", OtpSeconds, "", MaxAttempts, false, "")

  const IncompleteOtp := "Please enter complete 6-digit OTP"
  const InvalidOtp := "Invalid OTP. Please try again."

  /** The countdown stays within 0..60 and the attempts never exceed three. */
  predicate Valid(st: OtpState) {
    0 <= st.countdown <= OtpSeconds && st.attemptsLeft <= MaxAttempts
  }

  /** `handleSmsVerification`: prefill the saved number, if any, and open
      the phone dialog. */
  function OpenSmsVerification(st: OtpState, d: UserData): (r: OtpState)
    ensures r.showPhoneVerification
    ensures r.verificationPhone == OrElse(d.contactNumber, d.phoneNumber)
    ensures r == st.(showPhoneVerification := true, verificationPhone := r.verificationPhone)
  {
    st.(verificationPhone := OrElse(d.contactNumber, d.phoneNumber), showPhoneVerification := true)
  }

  /** Typing in the phone field or the OTP slots. */
  function EnterPhone(st: OtpState, phone: string): OtpState {
    st.(verificationPhone := phone)
  }

  function EnterOtp(st: OtpState, otp: string): OtpState {
    st.(otp := otp)
  }

  /** The phone dialog's Cancel. */
  function ClosePhoneVerification(st: OtpState): OtpState {
    st.(showPhoneVerification := false)
  }

  /** `handleSendOtp`: nothing but an alert for an empty number; otherwise
      the OTP dialog replaces the phone dialog and the countdown restarts.
      The attempt counter is left as it was. */
  function SendOtp(st: OtpState): (r: OtpState)
    ensures st.verificationPhone == "" ==> r == st
    ensures st.verificationPhone != "" ==>
              r.showOtpInterface && !r.showPhoneVerification && r.countdown == OtpSeconds
              && r.otpSessionId == "mock-session-id" && !r.isLoading
              && r.attemptsLeft == st.attemptsLeft && r.otp == st.otp && r.smsEnabled == st.smsEnabled
  {
    if st.verificationPhone == "" then st
    else st.(otpSessionId := "mock-session-id", showOtpInterface := true, showPhoneVerification := false,
             countdown := OtpSeconds, isLoading := false)
  }

  /** `handleOtpSubmit`. */
  function SubmitOtp(st: OtpState): (r: OtpState)
    ensures Utf16Length(st.otp) != 6 ==> r == st.(otpError := IncompleteOtp)
    ensures st.otp == DemoOtp ==>
              r.smsEnabled && !r.showOtpInterface && r.otp == "" && r.countdown == OtpSeconds
              && r.otpError == "" && r.attemptsLeft == MaxAttempts && r.otpSessionId == ""
    ensures Utf16Length(st.otp) == 6 && st.otp != DemoOtp ==>
              r.attemptsLeft == st.attemptsLeft - 1 && r.otpError == InvalidOtp && r.otp == ""
              && r.smsEnabled == st.smsEnabled
              && (r.showOtpInterface <==> st.showOtpInterface && st.attemptsLeft > 1)
              && r.countdown == (if st.attemptsLeft <= 1 then OtpSeconds else st.countdown)
              && r.verificationPhone == st.verificationPhone && r.otpSessionId == st.otpSessionId
              && r.showPhoneVerification == st.showPhoneVerification
    ensures Utf16Length(st.otp) == 6 ==> !r.isLoading
  {
    if Utf16Length(st.otp) != 6 then st.(otpError := IncompleteOtp)
    else if st.otp == DemoOtp then
      st.(smsEnabled := true, showOtpInterface := false, otp := "", countdown := OtpSeconds,
          otpError := "", attemptsLeft := MaxAttempts, otpSessionId := "", isLoading := false)
    else
      var wrong := st.(attemptsLeft := st.attemptsLeft - 1, otpError := InvalidOtp, isLoading := false);
      if st.attemptsLeft <= 1 then wrong.(showOtpInterface := false, otp := "", countdown := OtpSeconds)
      else wrong.(otp := "")
  }

  /** `handleResendOtp`: a new session, a full countdown and three attempts. */
  function ResendOtp(st: OtpState): (r: OtpState)
    ensures r.countdown == OtpSeconds && r.attemptsLeft == MaxAttempts && r.otpError == ""
    ensures r.otpSessionId == "new-session-id" && !r.isLoading
    ensures r.showOtpInterface == st.showOtpInterface && r.otp == st.otp && r.smsEnabled == st.smsEnabled
  {
    st.(otpSessionId := "new-session-id", countdown := OtpSeconds, otpError := "",
        attemptsLeft := MaxAttempts, isLoading := false)
  }

  /** The OTP dialog's Cancel: close it and reset the OTP, countdown,
      error and attempts. */
  function CancelOtp(st: OtpState): (r: OtpState)
    ensures !r.showOtpInterface && r.otp == "" && r.countdown == OtpSeconds
    ensures r.otpError == "" && r.attemptsLeft == MaxAttempts
    ensures r.smsEnabled == st.smsEnabled && r.otpSessionId == st.otpSessionId
  {
    st.(showOtpInterface := false, otp := "", countdown := OtpSeconds, otpError := "", attemptsLeft := MaxAttempts)
  }

  /** The OTP dialog's own close (Escape or a click outside), wired to
      `setShowOtpInterface`: only the dialog closes. Unlike Cancel it keeps
      the typed code, the attempts, the error and the countdown, and it
      leaves the countdown interval running. */
  function DismissOtp(st: OtpState): (r: OtpState)
    ensures !r.showOtpInterface
    ensures r.otp == st.otp && r.attemptsLeft == st.attemptsLeft && r.countdown == st.countdown
    ensures r.otpError == st.otpError && r.otpSessionId == st.otpSessionId && r.isLoading == st.isLoading
    ensures r.smsEnabled == st.smsEnabled && r.verificationPhone == st.verificationPhone
    ensures r.showPhoneVerification == st.showPhoneVerification
  {
    st.(showOtpInterface := false)
  }

  /** One second of the countdown interval. */
  function Tick(st: OtpState): (r: OtpState)
    ensures r.countdown == CountdownTick(st.countdown)
    ensures r.(countdown := st.countdown) == st
  {
    st.(countdown := CountdownTick(st.countdown))
  }

  /** `disabled={!verificationPhone || isLoading}`, negated. */
  predicate SendEnabled(st: OtpState) {
    st.verificationPhone != "" && !st.isLoading
  }

  /** `disabled={isLoading || otp.length !== 6}`, negated. */
  predicate SubmitEnabled(st: OtpState) {
    !st.isLoading && Utf16Length(st.otp) == 6
  }

  /** The resend link replaces the "Resend OTP in m:ss" text once `countdown > 0` fails. */
  predicate ResendShown(st: OtpState) {
    !(st.countdown > 0)
  }

  /** Every transition keeps the countdown within 0..60 and the attempts at most three. */
  lemma TransitionsKeepValid(st: OtpState, d: UserData, s: string)
    requires Valid(st)
    ensures Valid(OpenSmsVerification(st, d)) && Valid(EnterPhone(st, s)) && Valid(EnterOtp(st, s))
    ensures Valid(ClosePhoneVerification(st)) && Valid(SendOtp(st)) && Valid(SubmitOtp(st))
    ensures Valid(ResendOtp(st)) && Valid(CancelOtp(st)) && Valid(DismissOtp(st)) && Valid(Tick(st))
  {
  }

  /** Whenever the submit button is enabled, a submission spends an
      attempt or succeeds; an incomplete code spends nothing. */
  lemma IncompleteOtpCostsNothing(st: OtpState)
    requires Utf16Length(st.otp) != 6
    ensures !SubmitEnabled(st)
    ensures SubmitOtp(st).attemptsLeft == st.attemptsLeft
    ensures SubmitOtp(st).showOtpInterface == st.showOtpInterface
  {
  }

  /** Closing the dialog without Cancel does not start over: with an
      attempt spent, it differs from Cancel, and sending again reopens the
      dialog with the old code and the spent attempts. */
  lemma DismissIsNotCancel(st: OtpState)
    ensures !DismissOtp(st).showOtpInterface && !CancelOtp(st).showOtpInterface
    ensures st.attemptsLeft != MaxAttempts ==> DismissOtp(st) != CancelOtp(st)
    ensures st.verificationPhone != "" ==>
              var s := SendOtp(DismissOtp(st));
              s.showOtpInterface && s.otp == st.otp && s.attemptsLeft == st.attemptsLeft
  {
  }

  /** Three wrong codes in a row from a fresh dialog close it with no
      attempts left and SMS still disabled. */
  lemma ThreeWrongCodesLockOut(st: OtpState, a: string, b: string, c: string)
    requires st.showOtpInterface && st.attemptsLeft == MaxAttempts && !st.smsEnabled
    requires Utf16Length(a) == 6 && Utf16Length(b) == 6 && Utf16Length(c) == 6 && a != DemoOtp && b != DemoOtp && c != DemoOtp
    ensures var s1 := SubmitOtp(EnterOtp(st, a));
            var s2 := SubmitOtp(EnterOtp(s1, b));
            var s3 := SubmitOtp(EnterOtp(s2, c));
            s1.showOtpInterface && s2.showOtpInterface && !s3.showOtpInterface
            && s3.attemptsLeft == 0 && !s3.smsEnabled
  {
  }

  /** Sending a fresh code does not restore the attempts: after a lock-out,
      one more wrong code closes the dialog again and the counter goes below zero. */
  lemma SendAfterLockOutKeepsCounter(st: OtpState, wrong: string)
    requires st.attemptsLeft == 0 && st.verificationPhone != ""
    requires Utf16Length(wrong) == 6 && wrong != DemoOtp
    ensures var s := SubmitOtp(EnterOtp(SendOtp(st), wrong));
            !s.showOtpInterface && s.attemptsLeft == -1
  {
  }

  /** The right code is accepted whatever the counter says. */
  lemma DemoCodeAlwaysAccepted(st: OtpState)
    ensures SubmitOtp(EnterOtp(st, DemoOtp)).smsEnabled
    ensures SubmitOtp(EnterOtp(st, DemoOtp)).attemptsLeft == MaxAttempts
  {
  }

  /** After sending, the resend link appears after exactly sixty ticks and
      not before. */
  lemma ResendAfterSixtyTicks(st: OtpState, n: nat)
    requires st.verificationPhone != ""
    ensures var s := SendOtp(st);
            Ticks(s.countdown, n) <= 0 <==> n >= OtpSeconds
  {
    TicksClampAtZero(OtpSeconds, n);
  }
}

=== FILE: route_search.dfy ===
/** The route search card on the landing page: it is gated on the mock
    auth context's `isAuthenticated`, and builds the bus list URL from the
    two fields. `encodeURIComponent` is a parameter: the lemmas only use
    that its output never contains `&` (it escapes `&` as `%26`). */
module RouteSearch {
  import opened Wrappers
  import opened Text

  datatype SearchState = SearchState(origin: string, destination: string, showLoginPrompt: bool)

  const InitialSearch := SearchState("", "", false)

  /** A handler's effect: the new state and where it navigated, if anywhere. */
  datatype Effect = Effect(state: SearchState, navigateTo: Option<string>)

  function BusesPath(from: string, to: string): string {
    "/buses?from=" + from + "&to=" + to
  }

  /** `handleSearch`. */
  function HandleSearch(st: SearchState, isAuthenticated: bool, encode: string -> string): (e: Effect)
    ensures !isAuthenticated ==> e == Effect(st.(showLoginPrompt := true), None)
    ensures isAuthenticated && st.origin != "" && st.destination != "" ==>
              e == Effect(st, Some(BusesPath(encode(st.origin), encode(st.destination))))
    ensures isAuthenticated && (st.origin == "" || st.destination == "") ==> e == Effect(st, None)
  {
    if !isAuthenticated then Effect(st.(showLoginPrompt := true), None)
    else if Truthy(st.origin) && Truthy(st.destination) then
      Effect(st, Some(BusesPath(encode(st.origin), encode(st.destination))))
    else Effect(st, None)
  }

  /** `handleInputFocus`: the prompt opens for a signed-out visitor, nothing else changes. */
  function HandleInputFocus(st: SearchState, isAuthenticated: bool): (r: SearchState)
    ensures r.showLoginPrompt <==> st.showLoginPrompt || !isAuthenticated
    ensures r.origin == st.origin && r.destination == st.destination
  {
    if !isAuthenticated then st.(showLoginPrompt := true) else st
  }

  /** `handleLoginRedirect`: close the prompt and go to the login page. */
  function HandleLoginRedirect(st: SearchState): (e: Effect)
    ensures !e.state.showLoginPrompt && e.navigateTo == Some("/login")
    ensures e.state.origin == st.origin && e.state.destination == st.destination
  {
    Effect(st.(showLoginPrompt := false), Some("/login"))
  }

  /** The search button's `disabled={!origin || !destination}`, negated. */
  predicate SearchEnabled(st: SearchState) {
    st.origin != "" && st.destination != ""
  }

  /** A signed-out search never navigates; a signed-in one navigates
      exactly when the button is enabled. */
  lemma SearchNavigatesIffEnabled(st: SearchState, isAuthenticated: bool, encode: string -> string)
    ensures HandleSearch(st, isAuthenticated, encode).navigateTo.Some? <==> isAuthenticated && SearchEnabled(st)
  {
  }

  /** Reading the two query values back out of a bus list path. */
  function QueryOf(path: string): Option<(string, string)> {
    var head := "/buses?from=";
    if !StartsWith(path, head) then None
    else
      var parts := Split(path[|head|..], '&');
      if |parts| == 2 && StartsWith(parts[1], "to=") then Some((parts[0], parts[1][3..])) else None
  }

  /** The path carries both encoded values intact, so the page it opens
      can recover them. */
  lemma QueryRoundTrip(from: string, to: string)
    requires '&' !in from && '&' !in to
    ensures QueryOf(BusesPath(from, to)) == Some((from, to))
  {
    var head := "/buses?from=";
    var path := BusesPath(from, to);
    assert path == head + (from + ['&'] + ("to=" + to));
    assert path[|head|..] == from + ['&'] + ("to=" + to);
    var tail := "to=" + to;
    assert '&' !in tail by {
      forall i | 0 <= i < |tail| ensures tail[i] != '&' {
        if i >= 3 { assert tail[i] == to[i - 3]; }
      }
    }
    SplitAtFirst(from, '&', tail);
    SplitNoSeparator(tail, '&');
    assert tail[..3] == "to=" && tail[3..] == to;
  }

  /** Two successful searches lead to the same page only when the encoded
      origins and destinations agree. */
  lemma DistinctSearchesDistinctPaths(st1: SearchState, st2: SearchState, encode: string -> string)
    requires SearchEnabled(st1) && SearchEnabled(st2)
    requires '&' !in encode(st1.origin) && '&' !in encode(st1.destination)
    requires '&' !in encode(st2.origin) && '&' !in encode(st2.destination)
    requires HandleSearch(st1, true, encode).navigateTo == HandleSearch(st2, true, encode).navigateTo
    ensures encode(st1.origin) == encode(st2.origin) && encode(st1.destination) == encode(st2.destination)
  {
    QueryRoundTrip(encode(st1.origin), encode(st1.destination));
    QueryRoundTrip(encode(st2.origin), encode(st2.destination));
  }
}

=== FILE: signup.dfy ===
/** The Signup page: `validateForm` runs six checks in a fixed order and
    reports only the first that fails; `handleSubmit` calls `signUp` only
    for a valid form and navigates to the login page only on success. */
module Signup {
  import opened Wrappers
  import opened Text

  datatype SignupForm = SignupForm(fullName: string, email: string, phone: string,
                                   password: string, confirmPassword: string)

  /** One destructive toast per check. */
  datatype FormError =
    | FullNameRequired
    | InvalidEmail
    | InvalidPhoneNumber
    | PasswordTooShort
    | PasswordsDontMatch
    | TermsNotAccepted

  /** The order in which `validateForm` runs its checks. */
  const CheckOrder: seq<FormError> :=
    [FullNameRequired, InvalidEmail, InvalidPhoneNumber, PasswordTooShort, PasswordsDontMatch, TermsNotAccepted]

  /** The position of a check in CheckOrder. */
  function Rank(e: FormError): (n: nat)
    ensures n < |CheckOrder| && CheckOrder[n] == e
  {
    match e
    case FullNameRequired => 0
    case InvalidEmail => 1
    case InvalidPhoneNumber => 2
    case PasswordTooShort => 3
    case PasswordsDontMatch => 4
    case TermsNotAccepted => 5
  }

  /** The digits after an optional leading `+`. */
  function PhoneBody(s: string): string {
    if |s| > 0 && s[0] == '+' then s[1..] else s
  }

  /** `/^\+?\d{10,15}$/.test(s)`: an optional `+`, then 10 to 15 ASCII
      digits, then the end of the string. A leading `+` can only be taken
      by `\+?`, so the match is decided by PhoneBody. */
  predicate MatchesPhonePattern(s: string) {
    var d := PhoneBody(s);
    10 <= |d| <= 15 && AllDigits(d)
  }

  /** The regular expression as a left-to-right scan. */
  method MatchPhone(s: string) returns (ok: bool)
    ensures ok <==> MatchesPhonePattern(s)
  {
    var start := if |s| > 0 && s[0] == '+' then 1 else 0;
    var i := start;
    while i < |s| && IsAsciiDigit(s[i])
      invariant start <= i <= |s|
      invariant AllDigits(s[start..i])
    {
      assert s[start..i + 1] == s[start..i] + [s[i]];
      i := i + 1;
    }
    if i < |s| {
      assert s[start..][i - start] == s[i];
    } else {
      assert s[start..i] == s[start..];
    }
    ok := i == |s| && 10 <= |s| - start <= 15;
  }

  predicate NameMissing(f: SignupForm) {
    Trim(f.fullName) == ""
  }

  predicate EmailInvalid(f: SignupForm) {
    Trim(f.email) == "" || '@' !in f.email
  }

  predicate PhoneInvalid(f: SignupForm) {
    Trim(f.phone) == "" || !MatchesPhonePattern(f.phone)
  }

  /** `password.length < 8`, counted in UTF-16 code units. */
  predicate PasswordShort(f: SignupForm) {
    Utf16Length(f.password) < 8
  }

  predicate PasswordMismatch(f: SignupForm) {
    f.password != f.confirmPassword
  }

  /** Whether check `e` fails for this form. */
  predicate Fails(e: FormError, f: SignupForm, agreeToTerms: bool) {
    match e
    case FullNameRequired => NameMissing(f)
    case InvalidEmail => EmailInvalid(f)
    case InvalidPhoneNumber => PhoneInvalid(f)
    case PasswordTooShort => PasswordShort(f)
    case PasswordsDontMatch => PasswordMismatch(f)
    case TermsNotAccepted => !agreeToTerms
  }

  /** The reference reading: the first check of `order` that fails. */
  function FirstFailure(order: seq<FormError>, f: SignupForm, agreeToTerms: bool): Option<FormError> {
    if |order| == 0 then None
    else if Fails(order[0], f, agreeToTerms) then Some(order[0])
    else FirstFailure(order[1..], f, agreeToTerms)
  }

  /** `validateForm`, written as the chain of early returns it is: `None`
      for a valid form, otherwise the check that failed. */
  function Validate(f: SignupForm, agreeToTerms: bool): (r: Option<FormError>)
    ensures r.Some? ==> Fails(r.value, f, agreeToTerms)
    ensures r.None? ==> agreeToTerms && !PasswordMismatch(f) && !PasswordShort(f)
  {
    if NameMissing(f) then Some(FullNameRequired)
    else if EmailInvalid(f) then Some(InvalidEmail)
    else if PhoneInvalid(f) then Some(InvalidPhoneNumber)
    else if PasswordShort(f) then Some(PasswordTooShort)
    else if PasswordMismatch(f) then Some(PasswordsDontMatch)
    else if !agreeToTerms then Some(TermsNotAccepted)
    else None
  }

  lemma FirstFailureCons(e: FormError, rest: seq<FormError>, f: SignupForm, agreeToTerms: bool)
    ensures FirstFailure([e] + rest, f, agreeToTerms) ==
              if Fails(e, f, agreeToTerms) then Some(e) else FirstFailure(rest, f, agreeToTerms)
  {
    assert ([e] + rest)[1..] == rest;
  }

  /** `validateForm` reports exactly the first failing check of CheckOrder. */
  lemma ValidateIsFirstFailure(f: SignupForm, agreeToTerms: bool)
    ensures Validate(f, agreeToTerms) == FirstFailure(CheckOrder, f, agreeToTerms)
  {
    var e: seq<FormError> := [];
    FirstFailureCons(TermsNotAccepted, e, f, agreeToTerms);
    var o5 := [TermsNotAccepted] + e;
    FirstFailureCons(PasswordsDontMatch, o5, f, agreeToTerms);
    var o4 := [PasswordsDontMatch] + o5;
    FirstFailureCons(PasswordTooShort, o4, f, agreeToTerms);
    var o3 := [PasswordTooShort] + o4;
    FirstFailureCons(InvalidPhoneNumber, o3, f, agreeToTerms);
    var o2 := [InvalidPhoneNumber] + o3;
    FirstFailureCons(InvalidEmail, o2, f, agreeToTerms);
    var o1 := [InvalidEmail] + o2;
    FirstFailureCons(FullNameRequired, o1, f, agreeToTerms);
    assert CheckOrder == [FullNameRequired] + o1;
  }

  /** The form is valid iff no check fails. */
  lemma ValidIffAllChecksPass(f: SignupForm, agreeToTerms: bool)
    ensures Validate(f, agreeToTerms).None? <==> forall e :: !Fails(e, f, agreeToTerms)
  {
    if Validate(f, agreeToTerms).None? {
      forall e ensures !Fails(e, f, agreeToTerms) {
        match e
        case FullNameRequired =>
        case InvalidEmail =>
        case InvalidPhoneNumber =>
        case PasswordTooShort =>
        case PasswordsDontMatch =>
        case TermsNotAccepted =>
      }
    }
  }

  /** Only the first failure is reported: every earlier check passed. */
  lemma ReportsFirstFailure(f: SignupForm, agreeToTerms: bool)
    ensures var r := Validate(f, agreeToTerms);
            r.Some? ==> forall e :: Rank(e) < Rank(r.value) ==> !Fails(e, f, agreeToTerms)
  {
    var r := Validate(f, agreeToTerms);
    if r.Some? {
      forall e | Rank(e) < Rank(r.value) ensures !Fails(e, f, agreeToTerms) {
        EarlierCheckPasses(f, agreeToTerms, e);
      }
    }
  }

  /** One earlier check at a time: Validate got past it. */
  lemma EarlierCheckPasses(f: SignupForm, agreeToTerms: bool, e: FormError)
    requires Validate(f, agreeToTerms).Some? && Rank(e) < Rank(Validate(f, agreeToTerms).value)
    ensures !Fails(e, f, agreeToTerms)
  {
    match e
    case FullNameRequired =>
    case InvalidEmail => assert !NameMissing(f);
    case InvalidPhoneNumber => assert !NameMissing(f) && !EmailInvalid(f);
    case PasswordTooShort => assert !PhoneInvalid(f);
    case PasswordsDontMatch => assert !PasswordShort(f);
    case TermsNotAccepted =>
  }


  /** A phone number matching the pattern is never blank, so the
      `!phone.trim()` test before it never decides anything on its own. */
  lemma PhonePatternImpliesNotBlank(s: string)
    requires MatchesPhonePattern(s)
    ensures Trim(s) != ""
  {
    var d := PhoneBody(s);
    assert IsAsciiDigit(d[0]);
    assert !IsJsWhitespace(s[|s| - |d|]);
  }

  /** The phone check is decided by the pattern alone. */
  lemma PhoneCheckIsPattern(f: SignupForm, agreeToTerms: bool)
    ensures Fails(InvalidPhoneNumber, f, agreeToTerms) <==> !MatchesPhonePattern(f.phone)
  {
    if MatchesPhonePattern(f.phone) {
      PhonePatternImpliesNotBlank(f.phone);
    }
  }

  /** What `signUp` resolved to: an `{ error }` object, or a rejection. */
  datatype SignUpResponse = Returned(error: Option<string>) | Threw

  datatype Toast =
    | ValidationFailed(check: FormError)
    | SignupFailed(description: string)
    | RegistrationSuccessful

  /** The outcome of one submit: whether `signUp` was called (with which
      arguments), where the page navigated, the toast, and `isLoading` afterwards. */
  datatype SubmitResult = SubmitResult(signUpCall: Option<(string, string, string, string)>,
                                       navigateTo: Option<string>, toast: Toast, isLoading: bool)

  const GenericFailure := "An error occurred while creating your account. Please try again."

  /** `handleSubmit`. An `error` that is the empty string is falsy and counts as success. */
  function HandleSubmit(f: SignupForm, agreeToTerms: bool, response: SignUpResponse): (r: SubmitResult)
    ensures !r.isLoading
    ensures r.signUpCall.Some? <==> Validate(f, agreeToTerms).None?
    ensures r.signUpCall.Some? ==> r.signUpCall.value == (f.email, f.password, f.fullName, f.phone)
    ensures r.navigateTo.Some? ==> r.signUpCall.Some? && r.navigateTo.value == "/login"
    ensures r.navigateTo.Some? <==> r.toast == RegistrationSuccessful
    ensures response.Threw? || (response.error.Some? && response.error.value != "") ==> r.navigateTo.None?
    ensures Validate(f, agreeToTerms).Some? ==> r.toast == ValidationFailed(Validate(f, agreeToTerms).value)
    ensures Validate(f, agreeToTerms).None? && response.Threw? ==> r.toast == SignupFailed(GenericFailure)
    ensures Validate(f, agreeToTerms).None? && response.Returned? && response.error.Some? && response.error.value != "" ==>
              r.toast == SignupFailed(response.error.value)
    ensures Validate(f, agreeToTerms).None? && response.Returned? && (response.error.None? || response.error.value == "") ==>
              r.navigateTo == Some("/login") && r.toast == RegistrationSuccessful
  {
    match Validate(f, agreeToTerms)
    case Some(e) => SubmitResult(None, None, ValidationFailed(e), false)
    case None =>
      var call := Some((f.email, f.password, f.fullName, f.phone));
      match response
      case Threw => SubmitResult(call, None, SignupFailed(GenericFailure), false)
      case Returned(err) =>
        if err.Some? && err.value != "" then SubmitResult(call, None, SignupFailed(err.value), false)
        else SubmitResult(call, Some("/login"), RegistrationSuccessful, false)
  }

  /** The submit button's `disabled={isLoading || !agreeToTerms}`, negated. */
  predicate SubmitEnabled(isLoading: bool, agreeToTerms: bool) {
    !isLoading && agreeToTerms
  }

  /** Without the terms ticked the button is disabled and, were the form
      submitted anyway, it would never reach `signUp`. */
  lemma TermsGateSubmit(f: SignupForm, isLoading: bool, response: SignUpResponse)
    ensures !SubmitEnabled(isLoading, false)
    ensures HandleSubmit(f, false, response).signUpCall.None?
    ensures HandleSubmit(f, false, response).navigateTo.None?
  {
    var r := HandleSubmit(f, false, response);
    assert Validate(f, false).Some?;
    assert r.signUpCall.None?;
  }
}

=== FILE: stop_progression.dfy ===
/** The stop-by-stop bus animation shared by the Leaflet and the Google map
    components. A press of "Move to Next Stop" starts an interval timer that
    moves the marker to the stop at `currentStopIndex` in a fixed number of
    equal steps; when the last step fires the timer stops itself, reports
    that stop's seats and increments the index. "Reset Route" puts the
    marker back at the start, but does not cancel a timer that is still
    running. The steps of a running timer are described by StepPosition;
    the state machine treats each timer's completion as one event, so the
    timers still pending are part of the state. */
module StopProgression {
  import opened Wrappers

  datatype Stop = Stop(name: string, lat: real, lng: real, eta: string, seatsLeft: int)

  datatype Point = Point(lat: real, lng: real)

  function StopPoint(s: Stop): Point {
    Point(s.lat, s.lng)
  }

  /** The route polyline: the start, every stop in order, then the end. */
  function RouteCoords(start: Point, stops: seq<Stop>, end: Point): (r: seq<Point>)
    ensures |r| == |stops| + 2
    ensures r[0] == start && r[|r| - 1] == end
    ensures forall i :: 0 <= i < |stops| ==> r[i + 1] == StopPoint(stops[i])
  {
    [start] + seq(|stops|, i requires 0 <= i < |stops| => StopPoint(stops[i])) + [end]
  }

  /** `busStops[0]?.seatsLeft || 5`: the first stop's seats, unless there
      is no stop or it has none left. */
  function InitialSeats(stops: seq<Stop>): (n: int)
    ensures |stops| > 0 && stops[0].seatsLeft != 0 ==> n == stops[0].seatsLeft
    ensures (|stops| == 0 || stops[0].seatsLeft == 0) ==> n == 5
  {
    if |stops| > 0 && stops[0].seatsLeft != 0 then stops[0].seatsLeft else 5
  }

  // ---------------------------------------------------------------- interpolation

  /** `start + ((end - start) / numSteps) * step`. */
  function Lerp(a: real, b: real, step: nat, numSteps: nat): real
    requires numSteps > 0
  {
    a + ((b - a) / numSteps as real) * step as real
  }

  /** The marker's position after `step` of `numSteps` steps from `from` towards `to`. */
  function StepPosition(from: Point, to: Point, step: nat, numSteps: nat): (p: Point)
    requires numSteps > 0
    ensures step == 0 ==> p == from
    ensures step == numSteps ==> p == to
  {
    LerpEnds(from.lat, to.lat, numSteps);
    LerpEnds(from.lng, to.lng, numSteps);
    Point(Lerp(from.lat, to.lat, step, numSteps), Lerp(from.lng, to.lng, step, numSteps))
  }

  /** The walk starts at `a` and its last step lands exactly on `b`. */
  lemma LerpEnds(a: real, b: real, numSteps: nat)
    requires numSteps > 0
    ensures Lerp(a, b, 0, numSteps) == a
    ensures Lerp(a, b, numSteps, numSteps) == b
  {
    var d := (b - a) / numSteps as real;
    assert d * numSteps as real == b - a;
  }

  /** Every intermediate position lies between the two ends, and each step
      covers the same distance. */
  lemma LerpBetween(a: real, b: real, step: nat, numSteps: nat)
    requires 0 < numSteps && step <= numSteps
    ensures a <= b ==> a <= Lerp(a, b, step, numSteps) <= b
    ensures b <= a ==> b <= Lerp(a, b, step, numSteps) <= a
    ensures Lerp(a, b, step + 1, numSteps) - Lerp(a, b, step, numSteps) == (b - a) / numSteps as real
  {
    var d := (b - a) / numSteps as real;
    var n := numSteps as real;
    var k := step as real;
    assert d * n == b - a;
    assert 0.0 <= k <= n;
    if a <= b {
      assert d >= 0.0;
      assert d * k <= d * n;
    } else {
      assert d <= 0.0;
      assert d * k >= d * n;
    }
  }

  // ---------------------------------------------------------------- the machine

  /** A running animation timer: the stop it is heading for and where it set off from. */
  datatype Flight = Flight(target: nat, from: Point)

  /** `currentStopIndex`, `isAnimating`, the marker's resting position, the
      seats last reported through `onSeatUpdate` (`None` before the first
      report), and the timers still running. */
  datatype Progress = Progress(index: nat, animating: bool, position: Point, seats: Option<int>, inFlight: seq<Flight>)

  /** Where the marker stands after `step` ticks of a leg of `numSteps`
      ticks: it starts where the bus was and ends on the target stop. */
  function LegPosition(f: Flight, stops: seq<Stop>, step: nat, numSteps: nat): (q: Point)
    requires f.target < |stops| && 0 < numSteps && step <= numSteps
    ensures step == 0 ==> q == f.from
    ensures step == numSteps ==> q == StopPoint(stops[f.target])
  {
    StepPosition(f.from, StopPoint(stops[f.target]), step, numSteps)
  }

  /** The state before any seat report: marker at the start, no stop reached. */
  function Unreported(start: Point): (p: Progress)
    ensures p.index == 0 && !p.animating && p.inFlight == [] && p.position == start && p.seats.None?
  {
    Progress(0, false, start, None, [])
  }

  /** The state after the map is built: marker at the start, initial seats reported. */
  function Initial(start: Point, stops: seq<Stop>): (p: Progress)
    ensures p.index == 0 && !p.animating && p.inFlight == [] && p.seats == Some(InitialSeats(stops))
    ensures p == Unreported(start).(seats := Some(InitialSeats(stops)))
  {
    Progress(0, false, start, Some(InitialSeats(stops)), [])
  }

  /** Every running timer heads for a stop that exists. */
  predicate TargetsExist(p: Progress, stops: seq<Stop>) {
    forall i :: 0 <= i < |p.inFlight| ==> p.inFlight[i].target < |stops|
  }

  /** The button's `disabled={isAnimating || currentStopIndex >= busStops.length}`, negated. */
  predicate MoveEnabled(p: Progress, stops: seq<Stop>) {
    !p.animating && p.index < |stops|
  }

  /** `animateBus`: ignored unless the map objects exist (`ready`), no
      animation is running and a stop remains; otherwise a timer sets off
      for the current stop. */
  function Animate(p: Progress, stops: seq<Stop>, ready: bool): (r: Progress)
    ensures !(ready && MoveEnabled(p, stops)) ==> r == p
    ensures ready && MoveEnabled(p, stops) ==>
              r.animating && r.inFlight == p.inFlight + [Flight(p.index, p.position)]
              && r.index == p.index && r.seats == p.seats && r.position == p.position
    ensures TargetsExist(p, stops) ==> TargetsExist(r, stops)
  {
    if !ready || p.animating || p.index >= |stops| then p
    else p.(animating := true, inFlight := p.inFlight + [Flight(p.index, p.position)])
  }

  /** The last step of running timer `i`: it stops, the marker rests on its
      stop, that stop's seats are reported and the index moves on by one
      (counted from whatever the index is now). */
  function Complete(p: Progress, stops: seq<Stop>, i: nat): (r: Progress)
    requires i < |p.inFlight| && p.inFlight[i].target < |stops|
    ensures !r.animating && r.index == p.index + 1
    ensures r.seats == Some(stops[p.inFlight[i].target].seatsLeft)
    ensures r.position == StopPoint(stops[p.inFlight[i].target])
    ensures |r.inFlight| == |p.inFlight| - 1
    ensures forall j :: 0 <= j < |r.inFlight| ==> r.inFlight[j] == p.inFlight[if j < i then j else j + 1]
  {
    var stop := stops[p.inFlight[i].target];
    Progress(p.index + 1, false, StopPoint(stop), Some(stop.seatsLeft), p.inFlight[..i] + p.inFlight[i + 1..])
  }

  /** `resetAnimation`, when its marker objects exist: back to the start
      with index 0, not animating, initial seats. Running timers go on. */
  function Reset(p: Progress, start: Point, stops: seq<Stop>, hasMarker: bool): (r: Progress)
    ensures !hasMarker ==> r == p
    ensures hasMarker ==>
              r.index == 0 && !r.animating && r.position == start && r.seats == Some(InitialSeats(stops))
              && r.inFlight == p.inFlight
  {
    if hasMarker then Progress(0, false, start, Some(InitialSeats(stops)), p.inFlight) else p
  }

  /** The reset the rest of the design expects: it also cancels the running timer. */
  function ResetCancelling(p: Progress, start: Point, stops: seq<Stop>, hasMarker: bool): (r: Progress)
    ensures !hasMarker ==> r == p
    ensures hasMarker ==> r == Initial(start, stops)
  {
    if hasMarker then Initial(start, stops) else p
  }

  /** "Current Stop: …": the stop at the index, or "Destination Reached" past the last one. */
  function Label(p: Progress, stops: seq<Stop>): (s: string)
    ensures p.index < |stops| ==> s == stops[p.index].name
    ensures p.index >= |stops| ==> s == "Destination Reached"
  {
    if p.index < |stops| then stops[p.index].name else "Destination Reached"
  }

  // ---------------------------------------------------------------- runs

  /** What the user and the timers can do. */
  datatype Event = Move | Finish(timer: nat) | ResetRoute

  /** One event; `cancelling` chooses ResetCancelling over the reset as written.
      A Finish for a timer that is not running changes nothing. */
  function Step(p: Progress, start: Point, stops: seq<Stop>, ready: bool, cancelling: bool, e: Event): (r: Progress)
    ensures TargetsExist(p, stops) ==> TargetsExist(r, stops)
  {
    match e
    case Move => Animate(p, stops, ready)
    case Finish(i) =>
      if i < |p.inFlight| && p.inFlight[i].target < |stops| then Complete(p, stops, i) else p
    case ResetRoute =>
      if cancelling then ResetCancelling(p, start, stops, ready) else Reset(p, start, stops, ready)
  }

  function Run(p: Progress, start: Point, stops: seq<Stop>, ready: bool, cancelling: bool, events: seq<Event>): Progress
    decreases |events|
  {
    if events == [] then p
    else Run(Step(p, start, stops, ready, cancelling, events[0]), start, stops, ready, cancelling, events[1..])
  }

  /** At most one timer, and it heads for the current stop; the index plus
      the running timers never pass the last stop. */
  predicate Orderly(p: Progress, stops: seq<Stop>) {
    && p.index + |p.inFlight| <= |stops|
    && (p.animating <==> |p.inFlight| == 1)
    && |p.inFlight| <= 1
    && (|p.inFlight| == 1 ==> p.inFlight[0].target == p.index)
  }

  lemma OrderlyStep(p: Progress, start: Point, stops: seq<Stop>, ready: bool, e: Event)
    requires Orderly(p, stops)
    ensures Orderly(Step(p, start, stops, ready, true, e), stops)
  {
    match e
    case Move =>
    case Finish(i) =>
    case ResetRoute =>
  }

  /** With a cancelling reset the index never passes the number of stops,
      whatever the user presses and in whatever order the timers fire. */
  lemma {:induction false} CancellingRunStaysInRange(p: Progress, start: Point, stops: seq<Stop>, ready: bool,
                                                      events: seq<Event>)
    requires Orderly(p, stops)
    ensures Orderly(Run(p, start, stops, ready, true, events), stops)
    ensures Run(p, start, stops, ready, true, events).index <= |stops|
    decreases |events|
  {
    if events != [] {
      OrderlyStep(p, start, stops, ready, events[0]);
      CancellingRunStaysInRange(Step(p, start, stops, ready, true, events[0]), start, stops, ready, events[1..]);
    }
  }

  /** Without a reset, the component as written keeps the same bound. */
  lemma {:induction false} RunWithoutResetStaysInRange(p: Progress, start: Point, stops: seq<Stop>, ready: bool,
                                                        events: seq<Event>)
    requires Orderly(p, stops)
    requires forall k :: 0 <= k < |events| ==> events[k] != ResetRoute
    ensures Run(p, start, stops, ready, false, events).index <= |stops|
    decreases |events|
  {
    if events != [] {
      assert events[0] != ResetRoute;
      assert Step(p, start, stops, ready, false, events[0]) == Step(p, start, stops, ready, true, events[0]);
      OrderlyStep(p, start, stops, ready, events[0]);
      var rest := events[1..];
      assert forall k :: 0 <= k < |rest| ==> rest[k] != ResetRoute by {
        forall k | 0 <= k < |rest| ensures rest[k] != ResetRoute { assert rest[k] == events[k + 1]; }
      }
      RunWithoutResetStaysInRange(Step(p, start, stops, ready, false, events[0]), start, stops, ready, rest);
    }
  }

  /** As written, a reset during an animation lets a second animation set
      off while the first timer still runs: with a single stop, both
      complete and the index ends at 2, past the last stop. */
  lemma ResetDuringAnimationOvershoots(start: Point, s: Stop)
    ensures var p := Run(Initial(start, [s]), start, [s], true, false, [Move, ResetRoute, Move, Finish(0), Finish(0)]);
            p.index == 2 && p.index > |[s]| && !p.animating && p.inFlight == []
  {
    var stops := [s];
    var f := Flight(0, start);
    var seats := Some(InitialSeats(stops));
    var p0 := Initial(start, stops);
    var p1 := Progress(0, true, start, seats, [f]);
    var p2 := Progress(0, false, start, seats, [f]);
    var p3 := Progress(0, true, start, seats, [f, f]);
    var p4 := Progress(1, false, StopPoint(s), Some(s.seatsLeft), [f]);
    var p5 := Progress(2, false, StopPoint(s), Some(s.seatsLeft), []);
    assert Step(p0, start, stops, true, false, Move) == p1;
    assert Step(p1, start, stops, true, false, ResetRoute) == p2;
    assert Step(p2, start, stops, true, false, Move) == p3;
    assert Step(p3, start, stops, true, false, Finish(0)) == p4 by { assert [f, f][..0] + [f, f][1..] == [f]; }
    assert Step(p4, start, stops, true, false, Finish(0)) == p5 by { assert [f][..0] + [f][1..] == []; }
    var e5: seq<Event> := [Finish(0)];
    var e4 := [Finish(0)] + e5;
    var e3 := [Move] + e4;
    var e2 := [ResetRoute] + e3;
    var e1 := [Move] + e2;
    assert Run(p5, start, stops, true, false, []) == p5;
    assert Run(p4, start, stops, true, false, e5) == p5 by { assert e5[1..] == []; }
    assert Run(p3, start, stops, true, false, e4) == p5 by { assert e4[0] == Finish(0) && e4[1..] == e5; }
    assert Run(p2, start, stops, true, false, e3) == p5 by { assert e3[0] == Move && e3[1..] == e4; }
    assert Run(p1, start, stops, true, false, e2) == p5 by { assert e2[0] == ResetRoute && e2[1..] == e3; }
    assert Run(p0, start, stops, true, false, e1) == p5 by { assert e1[0] == Move && e1[1..] == e2; }
    assert e1 == [Move, ResetRoute, Move, Finish(0), Finish(0)];
  }
}

=== FILE: text.dfy ===
/** String helpers with JavaScript semantics: `String.prototype.trim`,
    `String.prototype.split` on a one-character separator, decimal
    rendering of naturals, `length` in UTF-16 code units, and the ASCII character classes `[a-z]`,
    `[A-Z]` and `\d` of a regular expression without the `i` flag. */
module Text {

  /** The code points `String.prototype.trim` removes: ECMAScript
      WhiteSpace (TAB, VT, FF, SP, NBSP, ZWNBSP and category Zs) and
      LineTerminator (LF, CR, LS, PS). */
  predicate IsJsWhitespace(c: char) {
    || c == '\t' || c == '\n' || c == '\U{B}' || c == '\U{C}' || c == '\r'
    || c == ' ' || c == '\U{A0}' || c == '\U{1680}'
    || ('\U{2000}' <= c <= '\U{200A}')
    || c == '\U{2028}' || c == '\U{2029}' || c == '\U{202F}'
    || c == '\U{205F}' || c == '\U{3000}' || c == '\U{FEFF}'
  }

  /** True iff every character of `s` is whitespace (so `s.trim()` is `""`). */
  predicate IsBlank(s: string) {
    forall i :: 0 <= i < |s| ==> IsJsWhitespace(s[i])
  }

  /** Drops the leading whitespace. */
  function TrimStart(s: string): (r: string)
    ensures |r| <= |s| && r == s[|s| - |r|..]
    ensures r == [] || !IsJsWhitespace(r[0])
    ensures forall i :: 0 <= i < |s| - |r| ==> IsJsWhitespace(s[i])
  {
    if |s| > 0 && IsJsWhitespace(s[0]) then TrimStart(s[1..]) else s
  }

  /** Drops the trailing whitespace. */
  function TrimEnd(s: string): (r: string)
    ensures |r| <= |s| && r == s[..|r|]
    ensures r == [] || !IsJsWhitespace(r[|r| - 1])
    ensures forall i :: |r| <= i < |s| ==> IsJsWhitespace(s[i])
  {
    if |s| > 0 && IsJsWhitespace(s[|s| - 1]) then TrimEnd(s[..|s| - 1]) else s
  }

  /** `s.trim()`: what is left once the leading and the trailing
      whitespace are dropped; it is empty exactly for blank strings. */
  function Trim(s: string): (r: string)
    ensures |r| <= |s|
    ensures r == [] || (!IsJsWhitespace(r[0]) && !IsJsWhitespace(r[|r| - 1]))
    ensures r == [] <==> IsBlank(s)
  {
    var t := TrimStart(s);
    var r := TrimEnd(t);
    r
  }

  /** The characters Trim keeps form a contiguous run of the input. */
  lemma TrimIsInfix(s: string)
    ensures var k := |s| - |TrimStart(s)|; Trim(s) == s[k..k + |Trim(s)|]
  {
  }

  /** JavaScript truthiness of a string: only `""` is falsy. */
  predicate Truthy(s: string) {
    s != []
  }

  /** `a || b` on strings. */
  function OrElse(a: string, b: string): (r: string)
    ensures Truthy(a) ==> r == a
    ensures !Truthy(a) ==> r == b
  {
    if Truthy(a) then a else b
  }

  /** How many UTF-16 code units a character takes: a code point above
      U+FFFF is a surrogate pair, anything else one unit. */
  function Utf16Units(c: char): (n: nat)
    ensures n == 1 || n == 2
    ensures n == 2 <==> c as int > 0xFFFF
  {
    if c as int > 0xFFFF then 2 else 1
  }

  /** `String.prototype.length`: the number of UTF-16 code units, which is
      at least the number of characters and at most twice it. */
  function Utf16Length(s: string): (n: nat)
    ensures |s| <= n <= 2 * |s|
    decreases |s|
  {
    if s == [] then 0 else Utf16Units(s[0]) + Utf16Length(s[1..])
  }

  /** No character outside the Basic Multilingual Plane. */
  predicate InBasicPlane(s: string) {
    forall i :: 0 <= i < |s| ==> s[i] as int <= 0xFFFF
  }

  lemma {:induction false} Utf16LengthAppend(s: string, t: string)
    ensures Utf16Length(s + t) == Utf16Length(s) + Utf16Length(t)
    decreases |s|
  {
    if s != [] {
      assert (s + t)[1..] == s[1..] + t;
      Utf16LengthAppend(s[1..], t);
    } else {
      assert s + t == t;
    }
  }

  /** The JavaScript length and the character count agree exactly when
      every character lies in the Basic Multilingual Plane. */
  lemma {:induction false} Utf16LengthIsLengthIff(s: string)
    ensures Utf16Length(s) == |s| <==> InBasicPlane(s)
    decreases |s|
  {
    if s != [] {
      Utf16LengthIsLengthIff(s[1..]);
      assert forall i :: 1 <= i < |s| ==> s[i] == s[1..][i - 1];
      if InBasicPlane(s) {
        assert s[0] as int <= 0xFFFF;
        assert InBasicPlane(s[1..]);
      }
    }
  }

  predicate IsAsciiDigit(c: char) {
    '0' <= c <= '9'
  }

  predicate IsAsciiLower(c: char) {
    'a' <= c <= 'z'
  }

  predicate IsAsciiUpper(c: char) {
    'A' <= c <= 'Z'
  }

  predicate AllDigits(s: string) {
    forall i :: 0 <= i < |s| ==> IsAsciiDigit(s[i])
  }

  function DigitChar(d: nat): (c: char)
    requires d < 10
    ensures IsAsciiDigit(c)
  {
    ('0' as int + d) as char
  }

  function DigitValue(c: char): (d: nat)
    requires IsAsciiDigit(c)
    ensures d < 10 && DigitChar(d) == c
  {
    c as int - '0' as int
  }

  /** `String(n)` for a non-negative integer: decimal digits, no leading zero. */
  function NatToString(n: nat): (r: string)
    ensures |r| >= 1 && AllDigits(r)
    ensures r[0] == '0' ==> r == "0"
    decreases n
  {
    if n < 10 then [DigitChar(n)] else NatToString(n / 10) + [DigitChar(n % 10)]
  }

  /** The number a string of decimal digits denotes (the inverse of NatToString). */
  function DigitsValue(s: string): nat
    requires AllDigits(s)
  {
    if s == [] then 0 else 10 * DigitsValue(s[..|s| - 1]) + DigitValue(s[|s| - 1])
  }

  lemma {:induction false} NatToStringRoundTrip(n: nat)
    ensures DigitsValue(NatToString(n)) == n
    decreases n
  {
    if n >= 10 {
      var r := NatToString(n);
      assert r[..|r| - 1] == NatToString(n / 10);
      NatToStringRoundTrip(n / 10);
    }
  }

  /** NatToString is injective: distinct numbers render differently. */
  lemma NatToStringInjective(m: nat, n: nat)
    requires NatToString(m) == NatToString(n)
    ensures m == n
  {
    NatToStringRoundTrip(m);
    NatToStringRoundTrip(n);
  }

  /** `s.startsWith(prefix)`. */
  predicate StartsWith(s: string, prefix: string) {
    |prefix| <= |s| && s[..|prefix|] == prefix
  }

  /** `s.split(sep)` for a one-character separator: the maximal
      separator-free pieces, always at least one (`"".split(",")` is `[""]`). */
  function Split(s: string, sep: char): (parts: seq<string>)
    ensures |parts| >= 1
    ensures forall i :: 0 <= i < |parts| ==> sep !in parts[i]
    ensures |parts| - 1 == CountChar(s, sep)
    decreases |s|
  {
    if |s| == 0 then [""]
    else
      var rest := Split(s[1..], sep);
      if s[0] == sep then [""] + rest
      else [[s[0]] + rest[0]] + rest[1..]
  }

  /** The number of occurrences of `c` in `s`. */
  function CountChar(s: string, c: char): nat {
    if |s| == 0 then 0 else (if s[0] == c then 1 else 0) + CountChar(s[1..], c)
  }

  /** A character occurs in a string iff its count there is positive. */
  lemma {:induction false} CountCharZeroIff(s: string, c: char)
    ensures CountChar(s, c) == 0 <==> c !in s
    decreases |s|
  {
    if |s| > 0 {
      CountCharZeroIff(s[1..], c);
      assert s == [s[0]] + s[1..];
    }
  }

  /** `parts.join(sep)`. */
  function Join(parts: seq<string>, sep: char): string
    requires |parts| >= 1
  {
    if |parts| == 1 then parts[0] else parts[0] + [sep] + Join(parts[1..], sep)
  }

  /** Joining the pieces of a split gives back the original string. */
  lemma {:induction false} SplitJoinRoundTrip(s: string, sep: char)
    ensures Join(Split(s, sep), sep) == s
    decreases |s|
  {
    if |s| > 0 {
      var rest := Split(s[1..], sep);
      SplitJoinRoundTrip(s[1..], sep);
      if s[0] == sep {
        assert Split(s, sep)[1..] == rest;
      } else if |rest| == 1 {
        assert Join(Split(s, sep), sep) == [s[0]] + rest[0];
        assert s == [s[0]] + s[1..];
      } else {
        var parts := Split(s, sep);
        assert parts[1..] == rest[1..];
        assert Join(parts, sep) == [s[0]] + rest[0] + [sep] + Join(rest[1..], sep);
        assert s == [s[0]] + s[1..];
      }
    }
  }

  /** Splitting a separator-free string yields that string alone. */
  lemma {:induction false} SplitNoSeparator(s: string, sep: char)
    requires sep !in s
    ensures Split(s, sep) == [s]
    decreases |s|
  {
    if |s| > 0 {
      assert sep !in s[1..];
      SplitNoSeparator(s[1..], sep);
      assert s == [s[0]] + s[1..];
    }
  }

  /** A separator-free head followed by the separator is split off as the first piece. */
  lemma {:induction false} SplitAtFirst(a: string, sep: char, b: string)
    requires sep !in a
    ensures Split(a + [sep] + b, sep) == [a] + Split(b, sep)
    decreases |a|
  {
    if |a| == 0 {
      assert a + [sep] + b == [sep] + b;
      assert ([sep] + b)[1..] == b;
    } else {
      var s := a + [sep] + b;
      assert s[1..] == a[1..] + [sep] + b;
      assert sep !in a[1..];
      SplitAtFirst(a[1..], sep, b);
      assert [a[0]] + a[1..] == a;
    }
  }
}

=== FILE: wrappers.dfy ===
/** The optional-value datatype used wherever the source has `T | null`,
    `T | undefined` or an optional property. */
module Wrappers {

  datatype Option<+T> = None | Some(value: T) {

    /** Returns the value in Some, or `default` for None (JavaScript `x ?? d`). */
    function GetOr(default: T): T {
      match this
      case Some(v) => v
      case None => default
    }
  }
}
